=== FILE: README.md ===
# RCPSP instance model and MILP constraint generator

A Dafny model of the core of RCPSP_SCIPvsGA, a resource-constrained project
scheduling tool. The model covers its two parts:

- **The PSPLIB `.sm` parser** (`parser.dfy`, properties in
  `parser_props.dfy`). It makes a single pass over the lines of the file,
  driven by three section flags (precedence, requests/durations, resource
  availabilities). The pass fills:
  - a successor map and a duration map keyed by job number;
  - a resource-usage map keyed by job number;
  - a capacity list.

  The instance is then assembled in four steps:
  1. one task per duration entry, in the unspecified iteration order of a hash map;
  2. successor ids outside `[1, n_jobs]` are dropped;
  3. predecessors are cleared;
  4. predecessors are rebuilt by pushing every task's id onto the task in slot `succ - 1`.
- **The MILP constraint generator** (`generator.dfy`, `formulation.dfy`,
  properties in `generator_props.dfy`; the linear-model vocabulary is in
  `milp.dfy`). From a parsed instance it emits integer start variables
  `t<id>` and a continuous `makespan`, then six constraint families in
  source order:
  1. precedence;
  2. makespan linking;
  3. disjunctive big-M ordering, with one binary `y` per pair of tasks that together overflow a resource;
  4. unavailability windows, with one binary `z` per task, resource and window;
  5. time-indexed activity indicators, with one binary `x` per task of non-zero duration and configured `(resource, time)`;
  6. per-`(resource, time)` capacity sums over the `x` found in the `(task id, time)` lookup table.

  Big-M is the total duration plus 1000.

Every loop of the core except the tokenizer loops that split a line into
integers is a Dafny method. Each method is proved against a
specification function:
- the line scan against `Step` and its fold `Run`;
- task assembly against `RawTask` over the parsed maps, the successor filter against
  `Seqs.InRange` and the predecessor rebuild against `RebuiltPredecessors`;
- big-M against `TotalDuration`;
- the generator's families against `Precedences`, `Makespans`,
  `Conflicts`/`OrderingCons`, `Windows`/`WindowCons`,
  `Indicators`/`IndicatorCons`/`XTable` and `Capacities`.

The properties are proved about those functions:
- exactly which pairs, windows and indicators are emitted (iff lemmas);
- what each constraint means for an integer assignment;
- that any solution of the emitted model is a valid schedule (`Formulation.SolutionIsSchedule`).

The code behaves as follows where a reader might expect otherwise:
- The parser state is three independent flags, not a four-state machine. A
  `RESOURCEAVAILABILITIES` line does not clear the precedence flag.
- Tasks come out in hash-map order, not sorted by id. The predecessor
  rebuild writes into slot `succ - 1`, so predecessor/successor duality is
  proved only when every task sits in the slot of its id
  (`ParserProperties.PredecessorDuality`). Without that condition it fails
  (`ParserProperties.DualityNeedsSlotIds`).
- An indicator `x` is created for every task of non-zero duration and every
  configured `(resource, time)`, whether or not the task uses that resource.
  The lookup table is keyed by `(task id, time)` only, so a later resource's
  `x` overwrites an earlier one. The capacity constraint of an earlier
  resource then sums the later resource's `x`
  (`GeneratorProperties.CapacityReadsLastIndicator`).
- The linking constraints only say that `x = 1` implies the task is active.
  Nothing forces `x = 1`. Take a schedule whose starts lie within `[0, M]`,
  with configured times in `[0, M)`, durations not negative and configured
  capacities not negative (the hard-wired table meets the last condition,
  `Formulation.SourceCapacitiesNeverBind`). Setting every `x` to 0 then
  satisfies all indicator and capacity constraints (`GeneratorProperties.IndicatorsNeverBind`,
  `GeneratorProperties.CapacitiesNeverBind`), so the time-indexed capacities
  never restrict such a schedule. The linking constraints do impose one
  cut-off: with binary `x`, every task of non-zero duration must start by
  `t + M` for every configured time `t` (`GeneratorProperties.IndicatorsCutOff`).

Variables are structured keys instead of name strings:
- `Start(id)` for `t<id>`;
- `Y(i, j, r)`;
- `Z(id, r, lo, hi)`;
- `X(id, r, t)`, which also records the resource it was created under, so
  the overwrite above stays visible.

A constraint is `lhs <= Σ coef·v <= rhs`, with a missing side for
±infinity. An assignment gives every variable an integer value.

The unavailability windows and time-indexed capacities are hard-wired in the
source. They are parameters of `Formulation.Generate`, and their source
values are the constants `Formulation.SourceUnavailability` and
`Formulation.SourceTimeCapacity`.

## Model

| member | source | states |
|---|---|---|
| Parser.ScanLine | rcpsp_parser.cpp:23-53 | one iteration of the if-else chain over markers and section flags yields exactly `Step`: marker lines only change flags; precedence lines set `successors[job]`; request lines set `durations[job]` and `resource_usage[job]`; resource lines append their integers to the capacities |
| Parser.ScanLines | rcpsp_parser.cpp:22-54 | the scan loop over all lines yields `Run(lines)`, the fold of `Step` from empty maps and cleared flags |
| Parser.BuildTasks | rcpsp_parser.cpp:60-67 | one task per key of the duration map, in some order, with distinct ids; each has its recorded duration, successors and usage (empty when absent) and no predecessors |
| Parser.SanitizeSuccessors | rcpsp_parser.cpp:70-78 | every task keeps exactly its successors in `[1, n_jobs]`, in order; nothing else changes |
| Parser.ClearPredecessors | rcpsp_parser.cpp:80-82 | every predecessor list becomes empty; nothing else changes |
| Parser.PushId | rcpsp_parser.cpp:84-86 | for one task, its id is appended once to the predecessors of slot `s - 1` for each occurrence of `s` among its successors |
| Parser.RebuildPredecessors | rcpsp_parser.cpp:83-87 | after the pushes of all tasks in order, slot `p` holds the ids pushed to it (`RebuiltPredecessors`); ids, durations, successors and usage are unchanged |
| Parser.BuildResources | rcpsp_parser.cpp:56-57 | one resource per capacity, in order |
| Parser.ParseSm | rcpsp_parser.cpp:6-90 | an unopenable file fails; otherwise the instance has `n_resources` equal to the number of capacities, `n_jobs` tasks (one per duration key, distinct ids), durations, usage and successors from the last line written for each job, successors restricted to `[1, n_jobs]`, and predecessors rebuilt |
| ParserProperties.FlagStep | rcpsp_parser.cpp:23-32 | a line sets a section flag iff it carries one of that flag's opening markers, clears it iff it carries a closing one, and otherwise leaves it unchanged |
| ParserProperties.FlagHistory | rcpsp_parser.cpp:13-32 | a flag is set after a prefix iff an opening marker occurred with no closing marker after it |
| ParserProperties.SectionFlags | rcpsp_parser.cpp:23-32 | precedence is open since `PRECEDENCE RELATIONS` unless a later `REQUESTS/DURATIONS` or star separator closed it; requests likewise, closed by `RESOURCEAVAILABILITIES` or a separator; resources is closed only by a separator |
| ParserProperties.MarkerLineIsNotData | rcpsp_parser.cpp:23-32 | a line carrying a marker changes only the flags, never the maps or capacities |
| ParserProperties.StepMaps | rcpsp_parser.cpp:33-48 | one line updates the successor map only as a precedence data line, and updates the duration and usage maps only as a requests data line |
| ParserProperties.SuccessorsPresent | rcpsp_parser.cpp:33-39 | a job has a successor entry iff some precedence data line names it |
| ParserProperties.SuccessorsLastValue | rcpsp_parser.cpp:36-39 | a job's successor entry is the `nsucc` integers after the header of the last precedence line that names it |
| ParserProperties.SuccessorsLastWrite | rcpsp_parser.cpp:33-39 | both of the above together: presence iff written, and the value from the last write |
| ParserProperties.RequestsPresent | rcpsp_parser.cpp:40-48 | a job has a duration iff some requests data line names it, and it has a usage entry iff it has a duration |
| ParserProperties.RequestsLastValue | rcpsp_parser.cpp:42-48 | a job's duration is the third integer of the last requests line naming it, and its usage is everything after that |
| ParserProperties.RequestsLastWrite | rcpsp_parser.cpp:40-48 | both of the above together for durations and usage |
| ParserProperties.CapacitiesInOrder | rcpsp_parser.cpp:49-53 | the capacity list is the concatenation, in file order, of the integers of the resource data lines |
| ParserProperties.PushedCount | rcpsp_parser.cpp:83-87 | when every task sits in the slot of its id, the number of times id `a + 1` is pushed to slot `b` equals the number of times `b + 1` occurs among task `a + 1`'s successors |
| ParserProperties.PredecessorDuality | rcpsp_parser.cpp:80-87 | with ids in their slots, `a` occurs among `b`'s predecessors as often as `b` among `a`'s successors; in particular `a ∈ pred(b) ⟺ b ∈ succ(a)` |
| ParserProperties.DualityNeedsSlotIds | rcpsp_parser.cpp:85 | with distinct ids in the wrong slots, the rebuild gives a task a successor whose predecessor list lacks it |
| Seqs.InRangeCount | rcpsp_parser.cpp:72-76 | the filter keeps every occurrence of an in-range value and drops every out-of-range one |
| Generator.ComputeBigM | main_scip.cpp:502-505 | big-M is the sum of all durations plus 1000 |
| Generator.StartVariables | main_scip.cpp:241-251 | one integer start variable in `[0, +inf)` per task in task order; slot `k` of the `n_jobs` slot vector holds `Start(k + 1)` if some task has id `k + 1`, and is empty otherwise |
| Generator.TaskPrecedences | main_scip.cpp:262-274 | position `j` holds the constraint for the task's `j`-th successor |
| Generator.PrecedenceConstraints | main_scip.cpp:261-275 | emits `Precedences`: for every task and successor in order, `start[succ] - start[t] >= duration[t]` |
| Generator.MakespanConstraints | main_scip.cpp:279-291 | emits `Makespans`: one `makespan - start[t] >= duration[t]` per task |
| Generator.EmitOrdering | main_scip.cpp:323-375 | declares one binary `y` and appends its two ordering constraints, with big-M recomputed |
| Generator.VisitPartner | main_scip.cpp:314-320 | partner `j` of row `i` adds a conflict iff it uses `r` and the two usages exceed the capacity |
| Generator.AddRowOrderings | main_scip.cpp:313-379 | the partner loop of row `i` extends `y` declarations and constraints by `RowConflicts` |
| Generator.AddResourceOrderings | main_scip.cpp:308-380 | the row loop of resource `r` skips rows whose task does not use `r` and extends by `ResourceConflicts` |
| Generator.DisjunctiveConstraints | main_scip.cpp:305-381 | emits `YDecls` and `OrderingCons` of `Conflicts` over the first `n_resources` resources |
| Generator.AddIntervalWindows | main_scip.cpp:405-461 | one binary `z` and the before/after constraints per interval of the resource |
| Generator.AddTaskWindows | main_scip.cpp:400-463 | the resource loop of one task skips resources it does not use or that have no configured windows |
| Generator.UnavailabilityConstraints | main_scip.cpp:399-464 | emits `ZDecls` and `WindowCons` of `Windows`, task by task |
| Generator.AddPointIndicators | main_scip.cpp:512-550 | one binary `x` and two linking constraints per time of a profile, each recorded in the table under `(id, t)` |
| Generator.AddTaskIndicators | main_scip.cpp:511-551 | the profile loop of one task |
| Generator.IndicatorConstraints | main_scip.cpp:508-552 | emits `XDecls` and `IndicatorCons` of `Indicators`, skipping zero-duration tasks, and returns the lookup table `XTable` |
| Generator.CollectCapacityTerms | main_scip.cpp:563-575 | the summands of one `(r, t)` sum: `usage · x` for each task in order that uses `r`, has non-zero duration and has an `(id, t)` entry |
| Generator.AddPointCapacities | main_scip.cpp:557-591 | appends one `sum <= cap` constraint per time of a profile whose sum is non-empty |
| Generator.CapacityConstraints | main_scip.cpp:556-592 | emits `Capacities`, profile by profile |
| GeneratorProperties.EverySlotFilled | main_scip.cpp:241-250 | with `n_jobs` tasks of distinct ids in `[1, n_jobs]`, every id in `[1, n_jobs]` belongs to some task, so no `start_vars[id - 1]` read is empty |
| GeneratorProperties.PrecedencesMember | main_scip.cpp:261-275 | a constraint is a precedence constraint iff it is the one for some task and one of its successors |
| GeneratorProperties.PrecedencesSize | main_scip.cpp:261-275 | there are as many precedence constraints as successor links |
| GeneratorProperties.PrecedenceMeaning | main_scip.cpp:264-270 | a precedence constraint holds iff the successor starts no earlier than the task finishes |
| GeneratorProperties.PrecedencesExact | main_scip.cpp:261-275 | an assignment satisfies all precedence constraints iff every successor starts after its predecessor finishes |
| GeneratorProperties.MakespansAt | main_scip.cpp:279-291 | one makespan constraint per task, in task order |
| GeneratorProperties.MakespanMeaning | main_scip.cpp:280-287 | a makespan constraint holds iff the makespan is at least the task's finish time |
| GeneratorProperties.MakespansExact | main_scip.cpp:279-291 | all makespan constraints hold iff the makespan is at least every finish time |
| GeneratorProperties.ConflictsMember | main_scip.cpp:305-320 | a conflict is emitted iff it pairs, on a resource `r < n_resources`, task `i` with a later task `j`, both using `r` with combined usage above the capacity |
| GeneratorProperties.ConflictExact | main_scip.cpp:305-320 | a given pair `i < j` on resource `r` gets a `y` iff both use `r` and their usages exceed the capacity |
| GeneratorProperties.OrderingAt | main_scip.cpp:322-375 | the `k`-th conflict's `y` is the `k`-th declaration, and its two constraints sit at positions `2k` and `2k + 1` |
| GeneratorProperties.OrderingSound | main_scip.cpp:338-375 | with binary `y`: `y = 1` forces `i` to finish before `j` starts, and `y = 0` forces the reverse |
| GeneratorProperties.OrderingExact | main_scip.cpp:338-375 | when both tasks run within `[0, M]`, the two constraints hold iff the ordering chosen by `y` holds, so big-M never cuts off a valid schedule |
| GeneratorProperties.ClashingTasksOrdered | main_scip.cpp:305-381 | in any solution of the ordering constraints, two clashing tasks are ordered according to their `y` |
| GeneratorProperties.IntervalWindowsMember | main_scip.cpp:405 | the windows of one task and resource are exactly its configured intervals |
| GeneratorProperties.TaskWindowsMember | main_scip.cpp:400-405 | a task gets a window on resource `r < R` iff it uses `r` and the interval is configured for `r` |
| GeneratorProperties.WindowsMember | main_scip.cpp:399-405 | a window is emitted iff its task is in the instance, uses the resource, the interval is configured, and the resource is below `n_resources` |
| GeneratorProperties.WindowsAt | main_scip.cpp:407-458 | the `k`-th window's `z` is the `k`-th declaration, and its constraints sit at `2k` and `2k + 1` |
| GeneratorProperties.WindowSound | main_scip.cpp:423-458 | with binary `z`: `z = 1` forces the task to finish by `L`, and `z = 0` forces it to start at or after `U` |
| GeneratorProperties.WindowExact | main_scip.cpp:423-458 | when the task and window lie within `[0, M]`, the two constraints hold iff the side chosen by `z` holds |
| GeneratorProperties.WindowAvoided | main_scip.cpp:399-464 | in any solution, no windowed task overlaps its unavailable interval |
| GeneratorProperties.IndicatorsMember | main_scip.cpp:508-512 | an indicator exists iff its task has non-zero duration and `(r, t)` is configured; the task's usage of `r` plays no part |
| GeneratorProperties.IndicatorsAt | main_scip.cpp:514-549 | the `k`-th indicator's `x` is the `k`-th declaration, and its linking constraints sit at `2k` and `2k + 1` |
| GeneratorProperties.IndicatorSound | main_scip.cpp:525-549 | `x = 1` forces the task to have started by `t` and to end after `t` |
| GeneratorProperties.IndicatorNotForced | main_scip.cpp:525-549 | `x = 0` satisfies both linking constraints whenever the start lies within `[0, M]`, `t` lies within `[0, M)` and the duration is not negative |
| GeneratorProperties.IndicatorCutOff | main_scip.cpp:525-536 | with binary `x`, the first linking constraint holds iff the task has started by `t` when `x = 1` and by `t + M` when `x = 0` |
| GeneratorProperties.IndicatorsCutOff | main_scip.cpp:508-552 | in any solution of the indicator family with binary `x` and non-negative big-M, every task of non-zero duration starts by `t + M` for every configured `t` |
| GeneratorProperties.IndicatorIdle | main_scip.cpp:508-552 | `x = 0` satisfies both linking constraints of every emitted indicator, when every start lies within `[0, M]`, every duration is not negative and every configured time lies within `[0, M)` |
| GeneratorProperties.IndicatorsNeverBind | main_scip.cpp:508-552 | with every `x` at 0, starts within `[0, M]`, durations not negative and configured times within `[0, M)`, all linking constraints hold |
| GeneratorProperties.XTableLastWrite | main_scip.cpp:523 | `(id, t)` has a table entry iff some indicator has that key, and the entry is the `x` of the last such indicator |
| GeneratorProperties.CapacityTermsMember | main_scip.cpp:563-575 | a summand appears iff some task uses `r`, has non-zero duration and has an `(id, t)` entry, with coefficient its usage |
| GeneratorProperties.CapacitiesMember | main_scip.cpp:556-592 | a capacity constraint is emitted iff some configured `(r, t)` has a non-empty sum, and it is that sum bounded by the capacity |
| GeneratorProperties.SharedTimeIndicators | main_scip.cpp:508-523 | a task using only resource 0, with time 10 configured on resources 0 and 1, gets indicators under both resources |
| GeneratorProperties.SharedTimeTable | main_scip.cpp:523 | the table then keeps only the resource-1 indicator for `(1, 10)` |
| GeneratorProperties.SharedTimeCapacities | main_scip.cpp:556-592 | with that table, the resource-0 constraint sums the `x` created under resource 1, and resource 1 gets no constraint |
| GeneratorProperties.CapacityReadsLastIndicator | main_scip.cpp:508-592 | the full example: the `x` created under resource 0 is shadowed in the table by the one created under resource 1 |
| GeneratorProperties.CapacitiesNeverBind | main_scip.cpp:556-592 | with non-negative capacities and every `x` at 0, all capacity constraints hold |
| GeneratorProperties.CapacitiesIdle | main_scip.cpp:577-590 | the same for each emitted capacity constraint |
| Formulation.SourceTablesUsable | main_scip.cpp:474-495 | the hard-wired capacity table is an ordered map over non-negative resources, as the generator requires |
| Formulation.SourceCapacitiesNeverBind | main_scip.cpp:478-495 | with the hard-wired table, every `x` at 0 satisfies all capacity constraints |
| Formulation.ChainPrecedences | main_scip.cpp:261-275 | a dummy start 1 and a task 2 of duration 5 preceding a dummy end 3 yield the single constraint `start[3] - start[2] >= 5` |
| Formulation.ChainBigM | main_scip.cpp:502-505 | the chain's big-M is 1005 |
| Formulation.ChainOrderingHolds | main_scip.cpp:338-375 | with task 1 ordered before task 2 (`y = 1`), starts 0 and 0 meet the ordering pair of the two clashing tasks |
| Formulation.ChainWindowsHold | main_scip.cpp:423-458 | with `z = 1`, tasks 1 and 2 finishing by 5 meet the constraints of both windows `[30, 40)` |
| Formulation.ChainTimingHolds | main_scip.cpp:261-464 | starts 0, 0, 5, makespan 5, `y = 1` and both `z = 1` meet the chain's precedence, makespan, ordering and window constraints |
| Formulation.ChainIndicatorsHold | main_scip.cpp:508-592 | the same schedule with every `x` at 0 meets the chain's indicator and capacity constraints under the hard-wired table; the capacity family is not empty, since tasks 1 and 2 use the resource |
| Formulation.ChainSchedule | main_scip.cpp:240-592 | starts 0, 0, 5, makespan 5, every `y` and `z` at 1 and every other variable at 0 satisfy every constraint generated for the chain with the hard-wired tables |
| Formulation.ChainMakespans | main_scip.cpp:279-291 | the chain yields three makespan constraints |
| Formulation.ChainConflicts | main_scip.cpp:305-320 | tasks 1 and 2, holding 7 and 4 units of a resource of capacity 10, form the chain's only ordering pair; task 3 uses nothing |
| Formulation.ChainWindows | main_scip.cpp:399-405 | tasks 1 and 2, which use resource 0, each get the hard-wired window `[30, 40)`, and task 3 gets none |
| Formulation.Generate | main_scip.cpp:240-592 | the whole pass emits `Variables` (starts, makespan, `y`, `z`, `x`) and `Constraints` (the six families in order), and every `start_vars[id - 1]` is `Start(id)` |
| Formulation.FamiliesSatisfied | main_scip.cpp:240-592 | an assignment satisfies the whole model exactly when it satisfies each of its six constraint families (precedence, makespan, ordering, window, indicator, capacity) |
| Formulation.SolutionIsSchedule | main_scip.cpp:260-464 | any solution with binary choices respects precedences, has a makespan covering every finish, orders every clashing pair, and avoids every unavailability window |

## Left out

- Opening the file is an `Option` parameter: `None` stands for a file that cannot be opened, and the runtime error is the `CannotOpen` failure.
- Splitting a line into integer tokens (`istringstream`) is not modelled. Each line carries its text, for the marker searches, and the integers the stream would read.
- Parser.ParseSm: requires every data line to carry the integers its section reads. This means at least three integers, and for a precedence line `nsucc >= 0` and `nsucc` following values. With fewer tokens the source leaves variables unset or zeroed, and a negative count throws from the vector constructor; neither path is modelled.
- Formulation.Generate: requires `n_jobs` tasks whose distinct ids fill `[1, n_jobs]` in any order, and successor ids in `[1, n_jobs]`. The source indexes `start_vars[id - 1]` unchecked, so other inputs have no defined behaviour. It also requires `n_resources <= |resources|` and a capacity table shaped like an ordered map over non-negative resources, because `resources[r]` and `task.resources[r]` are read unchecked.
- Floating point: objective coefficients (1e-4 on starts, 1.0 on makespan) and the objective itself are not modelled. Big-M and all bounds are exact integers. `SCIPinfinity` is a missing side.
- The makespan is declared continuous, but assignments are integer-valued. The solution lemmas therefore speak about integer assignments only.
- Variable and constraint name strings are replaced by structured keys. Name collisions between `x` variables of different resources are not modelled.
- Solving, solution extraction, timing, output and the GUI and genetic-algorithm parts are not part of this model. Neither are variable and constraint release calls.
- Both configuration tables are parameters of the generator. Their source values are modelled as constants, but no main program wires them in.
- Integer width: the source's 32-bit `int` is unbounded in the model. This covers every parsed value, `usage_i + usage_j > capacity`, `id - 1` and the capacity and time values. Wrap-around near the 32-bit limits is not modelled, so `GeneratorProperties.ConflictExact` and the other exact statements describe the source only while these sums stay in range.
- Repeated equal intervals: when a resource lists the same interval `[L, U)` twice for one task, the source creates two distinct `z` variables. The model gives both the same key `Z(id, r, L, U)`, so `Formulation.Variables` declares that key twice. The hard-wired table has no repeats.

=== FILE: formulation.dfy ===
/** The whole constraint-generation pass: start and makespan variables
    followed by the six constraint families, in the order the source emits
    them, and what a solution of the emitted model means for the schedule. */
module Formulation {
  import opened Wrappers
  import opened Instance
  import opened Milp
  import opened Generator
  import opened GeneratorProperties

  /** What the generator needs of its input so that every `start_vars[id - 1]`
      lookup is in bounds and filled and every `resources[r]` read exists:
      `nJobs` tasks whose distinct ids fill `[1, nJobs]` in any order,
      successors in range, no more resources announced than listed, and
      time-capacity profiles shaped like an ordered map over non-negative
      resources. */
  predicate Generatable(inst: RcpspInstance, tc: TimeCapacity)
  {
    && |inst.tasks| == inst.nJobs
    && DistinctIds(inst.tasks)
    && (forall k :: 0 <= k < |inst.tasks| ==> 1 <= inst.tasks[k].id <= inst.nJobs)
    && (forall k, j :: 0 <= k < |inst.tasks| && 0 <= j < |inst.tasks[k].successors| ==>
          1 <= inst.tasks[k].successors[j] <= inst.nJobs)
    && inst.nResources <= |inst.resources|
    && OrderedMap(tc)
    && (forall p :: 0 <= p < |tc| ==> tc[p].r >= 0)
  }

  /** The unavailability windows the source hard-wires: `[30, 40)` on each
      of the resources 0 to 3. */
  const SourceUnavailability: Unavailability :=
    map[0 := [(30, 40)], 1 := [(30, 40)], 2 := [(30, 40)], 3 := [(30, 40)]]

  /** The time-indexed capacities the source hard-wires: times 10, 11 and 12
      on each of the resources 0 to 3. */
  const SourceTimeCapacity: TimeCapacity := [
    Profile(0, [Point(10, 2), Point(11, 1), Point(12, 3)]),
    Profile(1, [Point(10, 1), Point(11, 1), Point(12, 2)]),
    Profile(2, [Point(10, 2), Point(11, 2), Point(12, 2)]),
    Profile(3, [Point(10, 1), Point(11, 2), Point(12, 1)])]

  /** The hard-wired capacity table meets the generator's demands on the
      time-capacity configuration, so any instance whose distinct ids fill
      `[1, nJobs]` can be generated with it. */
  lemma SourceTablesUsable(inst: RcpspInstance)
    requires |inst.tasks| == inst.nJobs && DistinctIds(inst.tasks)
    requires forall k :: 0 <= k < |inst.tasks| ==> 1 <= inst.tasks[k].id <= inst.nJobs
    requires forall k, j :: 0 <= k < |inst.tasks| && 0 <= j < |inst.tasks[k].successors| ==>
               1 <= inst.tasks[k].successors[j] <= inst.nJobs
    requires inst.nResources <= |inst.resources|
    ensures Generatable(inst, SourceTimeCapacity)
  {
  }

  /** Under the hard-wired table, the capacity constraints are met by
      leaving every `x` at 0: its capacities are all non-negative. */
  lemma SourceCapacitiesNeverBind(tasks: seq<Task>, a: Assignment)
    requires forall id, r, t :: a(X(id, r, t)) == 0
    ensures Satisfies(Capacities(tasks, SourceTimeCapacity, XTable(Indicators(tasks, SourceTimeCapacity))), a)
  {
    CapacitiesNeverBind(tasks, SourceTimeCapacity, a);
  }

  /** A dummy start holding 7 units of the one resource (capacity 10), a
      task of duration 5 holding 4 units and preceding a dummy end that holds
      none. The first two clash on the resource, so they get an ordering
      `y`, and each of them gets a `z` for the window `[30, 40)`. */
  const ChainTasks := [Task(1, 0, [], [7], []), Task(2, 5, [3], [4], []), Task(3, 0, [], [0], [])]

  /** The chain yields a single precedence constraint, `start[3] - start[2]
      >= 5`. */
  lemma ChainPrecedences()
    ensures Precedences(ChainTasks) == [PrecedenceCons(ChainTasks[1], 3)]
  {
    var t := ChainTasks;
    var c := PrecedenceCons(t[1], 3);
    assert t[..1][..0] == [] && t[..2][..1] == t[..1] && t[..3][..2] == t[..2] && t[..3] == t;
    assert TaskPrecedences(t[0], 0) == [] && TaskPrecedences(t[2], 0) == [];
    assert TaskPrecedences(t[1], 1) == [c];
    assert Precedences(t[..1]) == Precedences([]) + [];
    assert Precedences(t[..2]) == Precedences(t[..1]) + [c];
    assert Precedences(t[..3]) == Precedences(t[..2]) + [];
  }

  /** The chain's big-M: its durations sum to 5. */
  lemma ChainBigM()
    ensures BigM(ChainTasks) == 1005
  {
    var t := ChainTasks;
    assert t[..1][..0] == [];
    assert TotalDuration(t[..1]) == 0;
    assert t[..2][..1] == t[..1];
    assert TotalDuration(t[..2]) == 5;
    assert t[..3][..2] == t[..2] && t[..3] == t;
  }

  /** The schedule of the chain: tasks 1 and 2 start at 0, task 3 and the
      makespan at 5; task 1 goes before task 2, both finish before the
      window opens, and every indicator is 0. */
  ghost predicate ChainValues(a: Assignment)
  {
    && a(Start(1)) == 0 && a(Start(2)) == 0 && a(Start(3)) == 5 && a(Makespan) == 5
    && a(Y(1, 2, 0)) == 1 && a(Z(1, 0, 30, 40)) == 1 && a(Z(2, 0, 30, 40)) == 1
    && forall id, r, t :: a(X(id, r, t)) == 0
  }

  /** That schedule meets the ordering pair of the clashing tasks 1 and 2. */
  lemma ChainOrderingHolds(a: Assignment)
    requires ChainValues(a)
    ensures Satisfies(OrderingCons(Conflicts(ChainTasks, [Resource(10)], 1), BigM(ChainTasks)), a)
  {
    var c := Conflict(0, ChainTasks[0], ChainTasks[1]);
    ChainConflicts();
    ChainBigM();
    assert [c][..0] == [];
    assert OrderingCons([c], 1005) == [OrderFirst(c, 1005), OrderSecond(c, 1005)];
    OrderingExact(c, 1005, a);
  }

  /** That schedule meets the window constraints of tasks 1 and 2: both
      finish by 30. */
  lemma ChainWindowsHold(a: Assignment)
    requires ChainValues(a)
    ensures Satisfies(WindowCons(Windows(ChainTasks, SourceUnavailability, 1), BigM(ChainTasks)), a)
  {
    var w1, w2 := Window(ChainTasks[0], 0, 30, 40), Window(ChainTasks[1], 0, 30, 40);
    ChainWindows();
    ChainBigM();
    assert [w1, w2][..1] == [w1] && [w1][..0] == [];
    assert WindowCons([w1], 1005) == [] + [WindowBefore(w1, 1005), WindowAfter(w1, 1005)];
    assert WindowCons([w1, w2], 1005)
        == [WindowBefore(w1, 1005), WindowAfter(w1, 1005), WindowBefore(w2, 1005), WindowAfter(w2, 1005)];
    WindowExact(w1, 1005, a);
    WindowExact(w2, 1005, a);
  }

  /** That schedule meets the precedence, makespan, ordering and window
      constraints of the chain. */
  lemma ChainTimingHolds(a: Assignment)
    requires ChainValues(a)
    ensures var m := BigM(ChainTasks);
            && Satisfies(Precedences(ChainTasks), a) && Satisfies(Makespans(ChainTasks), a)
            && Satisfies(OrderingCons(Conflicts(ChainTasks, [Resource(10)], 1), m), a)
            && Satisfies(WindowCons(Windows(ChainTasks, SourceUnavailability, 1), m), a)
  {
    var t := ChainTasks;
    ChainPrecedences();
    PrecedenceMeaning(t[1], 3, a);
    MakespansExact(t, a);
    ChainOrderingHolds(a);
    ChainWindowsHold(a);
  }

  /** That schedule meets the indicator and capacity constraints of the
      chain under the hard-wired capacity table. */
  lemma ChainIndicatorsHold(a: Assignment)
    requires ChainValues(a)
    ensures var tc := SourceTimeCapacity;
            && Satisfies(IndicatorCons(Indicators(ChainTasks, tc), BigM(ChainTasks)), a)
            && Satisfies(Capacities(ChainTasks, tc, XTable(Indicators(ChainTasks, tc))), a)
  {
    ChainBigM();
    IndicatorsNeverBind(ChainTasks, SourceTimeCapacity, a);
    SourceCapacitiesNeverBind(ChainTasks, a);
  }

  /** Starting task 3 and the makespan at 5, every `y` and `z` at 1 and every
      other variable at 0 satisfies every constraint the chain yields under
      the hard-wired configuration tables. */
  lemma ChainSchedule()
    ensures var a := (v: Var) => if v == Start(3) || v == Makespan then 5 else if v.Y? || v.Z? then 1 else 0;
            Satisfies(Constraints(RcpspInstance(3, 1, ChainTasks, [Resource(10)]), SourceUnavailability, SourceTimeCapacity), a)
  {
    var a := (v: Var) => if v == Start(3) || v == Makespan then 5 else if v.Y? || v.Z? then 1 else 0;
    ChainTimingHolds(a);
    ChainIndicatorsHold(a);
    FamiliesSatisfied(RcpspInstance(3, 1, ChainTasks, [Resource(10)]), SourceUnavailability, SourceTimeCapacity, a);
  }

  /** The chain yields one makespan constraint per task. */
  lemma ChainMakespans()
    ensures |Makespans(ChainTasks)| == 3
  {
    MakespansAt(ChainTasks);
  }

  /** Tasks 1 and 2 together need 11 of the 10 units, so they form the
      chain's one ordering pair; task 3 uses nothing. */
  lemma ChainConflicts()
    ensures Conflicts(ChainTasks, [Resource(10)], 1) == [Conflict(0, ChainTasks[0], ChainTasks[1])]
  {
    var t := ChainTasks;
    var c := Conflict(0, t[0], t[1]);
    assert RowConflicts(t, 0, 10, 0, 2) == [] + [c];
    assert RowConflicts(t, 0, 10, 0, 3) == [c] + [];
    assert RowConflicts(t, 0, 10, 1, 3) == [] + [];
    assert ResourceConflicts(t, 0, 10, 1) == [] + [c];
    assert ResourceConflicts(t, 0, 10, 2) == [c] + [];
    assert ResourceConflicts(t, 0, 10, 3) == [c] + [];
  }

  /** Tasks 1 and 2 use the resource, so each gets the window `[30, 40)`. */
  lemma ChainWindows()
    ensures Windows(ChainTasks, SourceUnavailability, 1)
         == [Window(ChainTasks[0], 0, 30, 40), Window(ChainTasks[1], 0, 30, 40)]
  {
    var t, u := ChainTasks, SourceUnavailability;
    var w1, w2 := Window(t[0], 0, 30, 40), Window(t[1], 0, 30, 40);
    assert [(30, 40)][..0] == [];
    assert IntervalWindows(t[0], 0, [(30, 40)]) == [w1];
    assert IntervalWindows(t[1], 0, [(30, 40)]) == [w2];
    assert TaskWindows(t[0], u, 1) == [] + [w1];
    assert TaskWindows(t[1], u, 1) == [] + [w2];
    assert TaskWindows(t[2], u, 1) == [] + [];
    assert t[..1][..0] == [] && t[..2][..1] == t[..1] && t[..3][..2] == t[..2] && t[..3] == t;
    assert Windows(t[..1], u, 1) == [] + [w1];
    assert Windows(t[..2], u, 1) == [w1] + [w2];
    assert Windows(t[..3], u, 1) == [w1, w2] + [];
  }

  /** The emitted model: declared variables and constraints, each in
      emission order. */
  datatype Problem = Problem(vars: seq<VarDecl>, cons: seq<Constraint>)

  function StartDecls(tasks: seq<Task>): (r: seq<VarDecl>)
    ensures |r| == |tasks| && forall k :: 0 <= k < |tasks| ==> r[k] == StartDecl(tasks[k])
  {
    seq(|tasks|, k requires 0 <= k < |tasks| => StartDecl(tasks[k]))
  }

  /** Variables in creation order: starts, makespan, then `y`, `z` and `x`. */
  function Variables(inst: RcpspInstance, unavailable: Unavailability, tc: TimeCapacity): seq<VarDecl>
    requires inst.nResources <= |inst.resources|
  {
    StartDecls(inst.tasks) + [MakespanDecl]
    + YDecls(Conflicts(inst.tasks, inst.resources, inst.nResources))
    + ZDecls(Windows(inst.tasks, unavailable, inst.nResources))
    + XDecls(Indicators(inst.tasks, tc))
  }

  /** Constraints in creation order, family by family. */
  function Constraints(inst: RcpspInstance, unavailable: Unavailability, tc: TimeCapacity): seq<Constraint>
    requires inst.nResources <= |inst.resources|
  {
    var m := BigM(inst.tasks);
    Precedences(inst.tasks) + Makespans(inst.tasks)
    + OrderingCons(Conflicts(inst.tasks, inst.resources, inst.nResources), m)
    + WindowCons(Windows(inst.tasks, unavailable, inst.nResources), m)
    + IndicatorCons(Indicators(inst.tasks, tc), m)
    + Capacities(inst.tasks, tc, XTable(Indicators(inst.tasks, tc)))
  }

  /** An assignment satisfies the whole constraint list exactly when it
      satisfies each of the six families. */
  lemma FamiliesSatisfied(inst: RcpspInstance, unavailable: Unavailability, tc: TimeCapacity, a: Assignment)
    requires inst.nResources <= |inst.resources|
    ensures var t, m := inst.tasks, BigM(inst.tasks);
            Satisfies(Constraints(inst, unavailable, tc), a) <==>
            && Satisfies(Precedences(t), a) && Satisfies(Makespans(t), a)
            && Satisfies(OrderingCons(Conflicts(t, inst.resources, inst.nResources), m), a)
            && Satisfies(WindowCons(Windows(t, unavailable, inst.nResources), m), a)
            && Satisfies(IndicatorCons(Indicators(t, tc), m), a)
            && Satisfies(Capacities(t, tc, XTable(Indicators(t, tc))), a)
  {
    var t, m := inst.tasks, BigM(inst.tasks);
    var prec, mk := Precedences(t), Makespans(t);
    var ord := OrderingCons(Conflicts(t, inst.resources, inst.nResources), m);
    var win := WindowCons(Windows(t, unavailable, inst.nResources), m);
    var ind := IndicatorCons(Indicators(t, tc), m);
    var cap := Capacities(t, tc, XTable(Indicators(t, tc)));
    SatisfiesAppend(prec, mk, a);
    SatisfiesAppend(prec + mk, ord, a);
    SatisfiesAppend(prec + mk + ord, win, a);
    SatisfiesAppend(prec + mk + ord + win, ind, a);
    SatisfiesAppend(prec + mk + ord + win + ind, cap, a);
  }

  /** Runs the whole pass. `startVars` is the slot vector the later loops
      read as `start_vars[id - 1]`: every slot holds the start variable of its
      own id, which is why the constraints can name `Start(id)` directly. */
  method Generate(inst: RcpspInstance, unavailable: Unavailability, tc: TimeCapacity)
    returns (p: Problem, startVars: seq<Option<Var>>)
    requires Generatable(inst, tc)
    ensures p.vars == Variables(inst, unavailable, tc)
    ensures p.cons == Constraints(inst, unavailable, tc)
    ensures |startVars| == inst.nJobs
    ensures forall id :: 1 <= id <= inst.nJobs ==> startVars[id - 1] == Some(Start(id))
  {
    var tasks := inst.tasks;
    var starts;
    starts, startVars := StartVariables(tasks, inst.nJobs);
    EverySlotFilled(tasks, inst.nJobs);
    assert starts == StartDecls(tasks);
    var precedences := PrecedenceConstraints(tasks);
    var makespans := MakespanConstraints(tasks);
    var ys, orderings := DisjunctiveConstraints(tasks, inst.resources, inst.nResources);
    var zs, windows := UnavailabilityConstraints(tasks, unavailable, inst.nResources);
    var xs, indicators, table := IndicatorConstraints(tasks, tc);
    var capacities := CapacityConstraints(tasks, tc, table);
    p := Problem(starts + [MakespanDecl] + ys + zs + xs,
                 precedences + makespans + orderings + windows + indicators + capacities);
  }

  /** Every `y`, `z` and `x` takes the value 0 or 1. */
  ghost predicate BinaryChoices(a: Assignment)
  {
    && (forall i, j, r :: a(Y(i, j, r)) == 0 || a(Y(i, j, r)) == 1)
    && (forall id, r, lo, hi :: a(Z(id, r, lo, hi)) == 0 || a(Z(id, r, lo, hi)) == 1)
    && (forall id, r, t :: a(X(id, r, t)) == 0 || a(X(id, r, t)) == 1)
  }

  /** A solution of the emitted model is a schedule: successors wait for
      their predecessors, the makespan covers every finish time, two tasks
      that together overflow a resource never overlap, and no task that uses
      a resource runs across one of its unavailability intervals. */
  lemma SolutionIsSchedule(inst: RcpspInstance, unavailable: Unavailability, tc: TimeCapacity, a: Assignment)
    requires inst.nResources <= |inst.resources|
    requires Satisfies(Constraints(inst, unavailable, tc), a)
    requires BinaryChoices(a)
    ensures PrecedencesRespected(inst.tasks, a)
    ensures forall k :: 0 <= k < |inst.tasks| ==> a(Makespan) >= a(Start(inst.tasks[k].id)) + inst.tasks[k].duration
    ensures forall r, i, j ::
              (0 <= r < inst.nResources && 0 <= i < j < |inst.tasks|
               && Clash(inst.tasks[i], inst.tasks[j], r, inst.resources[r].capacity)) ==>
              (a(Start(inst.tasks[j].id)) >= a(Start(inst.tasks[i].id)) + inst.tasks[i].duration
               || a(Start(inst.tasks[i].id)) >= a(Start(inst.tasks[j].id)) + inst.tasks[j].duration)
    ensures forall w :: w in Windows(inst.tasks, unavailable, inst.nResources) ==>
              a(Start(w.task.id)) + w.task.duration <= w.lo || a(Start(w.task.id)) >= w.hi
  {
    var tasks, m := inst.tasks, BigM(inst.tasks);
    var prec, mk := Precedences(tasks), Makespans(tasks);
    var ord := OrderingCons(Conflicts(tasks, inst.resources, inst.nResources), m);
    var win := WindowCons(Windows(tasks, unavailable, inst.nResources), m);
    var ind := IndicatorCons(Indicators(tasks, tc), m);
    var cap := Capacities(tasks, tc, XTable(Indicators(tasks, tc)));
    SatisfiesAppend(prec + mk + ord + win + ind, cap, a);
    SatisfiesAppend(prec + mk + ord + win, ind, a);
    SatisfiesAppend(prec + mk + ord, win, a);
    SatisfiesAppend(prec + mk, ord, a);
    SatisfiesAppend(prec, mk, a);
    PrecedencesExact(tasks, a);
    MakespansExact(tasks, a);
    forall r, i, j | 0 <= r < inst.nResources && 0 <= i < j < |tasks|
                     && Clash(tasks[i], tasks[j], r, inst.resources[r].capacity)
      ensures a(Start(tasks[j].id)) >= a(Start(tasks[i].id)) + tasks[i].duration
              || a(Start(tasks[i].id)) >= a(Start(tasks[j].id)) + tasks[j].duration
    {
      ClashingTasksOrdered(tasks, inst.resources, inst.nResources, a, r, i, j);
    }
    forall w | w in Windows(tasks, unavailable, inst.nResources)
      ensures a(Start(w.task.id)) + w.task.duration <= w.lo || a(Start(w.task.id)) >= w.hi
    {
      WindowAvoided(tasks, unavailable, inst.nResources, a, w);
    }
  }
}

=== FILE: generator.dfy ===
/** The constraint generator: from a parsed instance and the two hard-wired
    configurations (unavailability windows, time-indexed capacities) it emits
    the variables and linear constraints of the scheduling model, family by
    family, in the order of the source loops. Each family has a specification
    function describing the emitted sequence and a method that builds it the
    way the source does. */
module Generator {
  import opened Wrappers
  import opened Instance
  import opened Milp

  // ---------------------------------------------------------------- big-M

  /** The big-M constant: total duration plus 1000. */
  function BigM(tasks: seq<Task>): int
  {
    TotalDuration(tasks) + 1000
  }

  /** The summation loop that every family runs to get its big-M. */
  method ComputeBigM(tasks: seq<Task>) returns (m: int)
    ensures m == TotalDuration(tasks) + 1000
  {
    m := 0;
    var k := 0;
    while k < |tasks|
      invariant 0 <= k <= |tasks|
      invariant m == TotalDuration(tasks[..k])
    {
      assert tasks[..k + 1][..k] == tasks[..k];
      m := m + tasks[k].duration;
      k := k + 1;
    }
    assert tasks[..k] == tasks;
    m := m + 1000;
  }

  // ------------------------------------------------------- start variables

  /** `t<id>`: integer, `[0, +infinity)`. */
  function StartDecl(t: Task): VarDecl
  {
    VarDecl(Start(t.id), 0, None, Integer)
  }

  /** `makespan`: continuous, `[0, +infinity)`. */
  const MakespanDecl := VarDecl(Makespan, 0, None, Continuous)

  /** Some task carries id `id`. */
  predicate HasId(tasks: seq<Task>, id: int)
  {
    exists k :: 0 <= k < |tasks| && tasks[k].id == id
  }

  /** Declares one start variable per task, in task order, and files it in
      slot `id - 1` of a vector of `nJobs` initially empty slots. */
  method StartVariables(tasks: seq<Task>, nJobs: nat) returns (decls: seq<VarDecl>, slots: seq<Option<Var>>)
    requires forall k :: 0 <= k < |tasks| ==> 1 <= tasks[k].id <= nJobs
    ensures |decls| == |tasks|
    ensures forall k :: 0 <= k < |tasks| ==> decls[k] == StartDecl(tasks[k])
    ensures |slots| == nJobs
    ensures forall k :: 0 <= k < nJobs ==>
              slots[k] == if HasId(tasks, k + 1) then Some(Start(k + 1)) else None
  {
    decls := [];
    slots := seq(nJobs, _ => None);
    var i := 0;
    while i < |tasks|
      invariant 0 <= i <= |tasks|
      invariant |decls| == i
      invariant forall k :: 0 <= k < i ==> decls[k] == StartDecl(tasks[k])
      invariant |slots| == nJobs
      invariant forall k :: 0 <= k < nJobs ==>
                  slots[k] == if HasId(tasks[..i], k + 1) then Some(Start(k + 1)) else None
    {
      var t := tasks[i];
      decls := decls + [StartDecl(t)];
      slots := slots[t.id - 1 := Some(Start(t.id))];
      forall id | 1 <= id <= nJobs
        ensures HasId(tasks[..i + 1], id) <==> HasId(tasks[..i], id) || t.id == id
      {
        if HasId(tasks[..i + 1], id) {
          var q :| 0 <= q < i + 1 && tasks[..i + 1][q].id == id;
          if q < i {
            assert tasks[..i][q].id == id;
          }
        }
        if HasId(tasks[..i], id) {
          var q :| 0 <= q < i && tasks[..i][q].id == id;
          assert tasks[..i + 1][q].id == id;
        }
        if t.id == id {
          assert tasks[..i + 1][i].id == id;
        }
      }
      i := i + 1;
    }
    assert tasks[..i] == tasks;
  }

  // ------------------------------------------------------------ precedence

  /** `start[succ] - start[t] >= duration(t)`, no upper side. */
  function PrecedenceCons(t: Task, succ: int): Constraint
  {
    Linear([Term(Start(succ), 1), Term(Start(t.id), -1)], Some(t.duration), None)
  }

  /** The constraints for the first `n` successors of `t`: position `j`
      holds the one for `t.successors[j]`. */
  function TaskPrecedences(t: Task, n: nat): (r: seq<Constraint>)
    requires n <= |t.successors|
    ensures |r| == n
    ensures forall j :: 0 <= j < n ==> r[j] == PrecedenceCons(t, t.successors[j])
  {
    if n == 0 then [] else TaskPrecedences(t, n - 1) + [PrecedenceCons(t, t.successors[n - 1])]
  }

  /** All precedence constraints, task by task. */
  function Precedences(tasks: seq<Task>): seq<Constraint>
  {
    if tasks == [] then []
    else
      var last := tasks[|tasks| - 1];
      Precedences(tasks[..|tasks| - 1]) + TaskPrecedences(last, |last.successors|)
  }

  method PrecedenceConstraints(tasks: seq<Task>) returns (cons: seq<Constraint>)
    ensures cons == Precedences(tasks)
  {
    cons := [];
    var i := 0;
    while i < |tasks|
      invariant 0 <= i <= |tasks|
      invariant cons == Precedences(tasks[..i])
    {
      var t := tasks[i];
      var j := 0;
      while j < |t.successors|
        invariant 0 <= j <= |t.successors|
        invariant cons == Precedences(tasks[..i]) + TaskPrecedences(t, j)
      {
        cons := cons + [PrecedenceCons(t, t.successors[j])];
        j := j + 1;
      }
      assert tasks[..i + 1][..i] == tasks[..i];
      i := i + 1;
    }
    assert tasks[..i] == tasks;
  }

  // -------------------------------------------------------------- makespan

  /** `makespan - start[t] >= duration(t)`, no upper side. */
  function MakespanCons(t: Task): Constraint
  {
    Linear([Term(Makespan, 1), Term(Start(t.id), -1)], Some(t.duration), None)
  }

  function Makespans(tasks: seq<Task>): seq<Constraint>
  {
    if tasks == [] then [] else Makespans(tasks[..|tasks| - 1]) + [MakespanCons(tasks[|tasks| - 1])]
  }

  method MakespanConstraints(tasks: seq<Task>) returns (cons: seq<Constraint>)
    ensures cons == Makespans(tasks)
  {
    cons := [];
    var i := 0;
    while i < |tasks|
      invariant 0 <= i <= |tasks|
      invariant cons == Makespans(tasks[..i])
    {
      assert tasks[..i + 1][..i] == tasks[..i];
      cons := cons + [MakespanCons(tasks[i])];
      i := i + 1;
    }
    assert tasks[..i] == tasks;
  }

  // ----------------------------------------------------------- disjunctive

  /** A pair of tasks that compete for resource `r`: `first` comes before
      `second` in the task list. */
  datatype Conflict = Conflict(r: int, first: Task, second: Task)

  function YOf(c: Conflict): Var
  {
    Y(c.first.id, c.second.id, c.r)
  }

  /** `y = 1` forces `first` to finish before `second` starts:
      `start[second] - start[first] - M·y >= duration(first) - M`. */
  function OrderFirst(c: Conflict, m: int): Constraint
  {
    Linear([Term(Start(c.second.id), 1), Term(Start(c.first.id), -1), Term(YOf(c), -m)],
           Some(c.first.duration - m), None)
  }

  /** `y = 0` forces `second` to finish before `first` starts:
      `start[first] - start[second] + M·y >= duration(second)`. */
  function OrderSecond(c: Conflict, m: int): Constraint
  {
    Linear([Term(Start(c.first.id), 1), Term(Start(c.second.id), -1), Term(YOf(c), m)],
           Some(c.second.duration), None)
  }

  /** Both tasks use `r` and together exceed its capacity. */
  predicate Clash(first: Task, second: Task, r: int, capacity: int)
  {
    Usage(first, r) != 0 && Usage(second, r) != 0 && Usage(first, r) + Usage(second, r) > capacity
  }

  /** Conflicts of row `i` with the partners `i < j' < j`. */
  function RowConflicts(tasks: seq<Task>, r: int, capacity: int, i: nat, j: int): seq<Conflict>
    requires i < |tasks| && j <= |tasks|
    decreases j
  {
    if j <= i + 1 then []
    else
      var other := tasks[j - 1];
      RowConflicts(tasks, r, capacity, i, j - 1)
      + (if Usage(other, r) != 0 && Usage(tasks[i], r) + Usage(other, r) > capacity
         then [Conflict(r, tasks[i], other)] else [])
  }

  /** Conflicts on resource `r` of the rows `0 <= i' < i`; a row whose task
      does not use `r` is skipped. */
  function ResourceConflicts(tasks: seq<Task>, r: int, capacity: int, i: nat): seq<Conflict>
    requires i <= |tasks|
  {
    if i == 0 then []
    else
      ResourceConflicts(tasks, r, capacity, i - 1)
      + (if Usage(tasks[i - 1], r) == 0 then [] else RowConflicts(tasks, r, capacity, i - 1, |tasks|))
  }

  /** Conflicts on the resources `0 <= r < n`, resource by resource. */
  function Conflicts(tasks: seq<Task>, resources: seq<Resource>, n: int): seq<Conflict>
    requires n <= |resources|
    decreases n
  {
    if n <= 0 then []
    else Conflicts(tasks, resources, n - 1) + ResourceConflicts(tasks, n - 1, resources[n - 1].capacity, |tasks|)
  }

  function YDecls(cs: seq<Conflict>): seq<VarDecl>
  {
    if cs == [] then [] else YDecls(cs[..|cs| - 1]) + [BinaryDecl(YOf(cs[|cs| - 1]))]
  }

  function OrderingCons(cs: seq<Conflict>, m: int): seq<Constraint>
  {
    if cs == [] then []
    else
      var c := cs[|cs| - 1];
      OrderingCons(cs[..|cs| - 1], m) + [OrderFirst(c, m), OrderSecond(c, m)]
  }

  lemma ConflictsExtend(cs: seq<Conflict>, c: Conflict, m: int)
    ensures YDecls(cs + [c]) == YDecls(cs) + [BinaryDecl(YOf(c))]
    ensures OrderingCons(cs + [c], m) == OrderingCons(cs, m) + [OrderFirst(c, m), OrderSecond(c, m)]
  {
    assert (cs + [c])[..|cs|] == cs;
  }

  /** Re-associates a concatenation of three sequences. */
  lemma AppendAssoc<T>(a: seq<T>, b: seq<T>, c: seq<T>)
    ensures a + (b + c) == a + b + c
  {
  }

  /** Declares the `y` of one conflict and emits its two ordering
      constraints, with big-M recomputed. */
  method EmitOrdering(tasks: seq<Task>, c: Conflict, ghost done: seq<Conflict>, ys0: seq<VarDecl>, cons0: seq<Constraint>)
    returns (ys: seq<VarDecl>, cons: seq<Constraint>)
    requires ys0 == YDecls(done) && cons0 == OrderingCons(done, BigM(tasks))
    ensures ys == YDecls(done + [c]) && cons == OrderingCons(done + [c], BigM(tasks))
  {
    ys := ys0 + [BinaryDecl(YOf(c))];
    var m := ComputeBigM(tasks);
    cons := cons0 + [OrderFirst(c, m), OrderSecond(c, m)];
    ConflictsExtend(done, c, m);
  }

  /** One partner `j` of row `i`: if it also uses `r` and overflows the
      capacity together with `tasks[i]`, its conflict is emitted. `row` is
      the row so far and comes back extended. */
  method VisitPartner(tasks: seq<Task>, r: int, capacity: int, i: nat, j: nat,
                      ghost done: seq<Conflict>, ghost row0: seq<Conflict>, ys0: seq<VarDecl>, cons0: seq<Constraint>)
    returns (ghost row: seq<Conflict>, ys: seq<VarDecl>, cons: seq<Constraint>)
    requires i < j < |tasks|
    requires row0 == RowConflicts(tasks, r, capacity, i, j)
    requires ys0 == YDecls(done + row0) && cons0 == OrderingCons(done + row0, BigM(tasks))
    ensures row == RowConflicts(tasks, r, capacity, i, j + 1)
    ensures ys == YDecls(done + row) && cons == OrderingCons(done + row, BigM(tasks))
  {
    var usageFirst := Usage(tasks[i], r);
    var usageSecond := Usage(tasks[j], r);
    if usageSecond != 0 && usageFirst + usageSecond > capacity {
      var c := Conflict(r, tasks[i], tasks[j]);
      ys, cons := EmitOrdering(tasks, c, done + row0, ys0, cons0);
      AppendAssoc(done, row0, [c]);
      row := row0 + [c];
    } else {
      ys, cons := ys0, cons0;
      row := row0;
    }
  }

  /** The partner loop of row `i`: for every later task that also uses `r`
      and overflows the capacity together with `tasks[i]`, one binary `y`
      and two ordering constraints, big-M recomputed each time. The
      sequences built so far come in as `ys0`, `cons0` (they describe
      `done`) and are extended. */
  method AddRowOrderings(tasks: seq<Task>, r: int, capacity: int, i: nat,
                         ghost done: seq<Conflict>, ys0: seq<VarDecl>, cons0: seq<Constraint>)
    returns (ys: seq<VarDecl>, cons: seq<Constraint>)
    requires i < |tasks|
    requires ys0 == YDecls(done) && cons0 == OrderingCons(done, BigM(tasks))
    ensures ys == YDecls(done + RowConflicts(tasks, r, capacity, i, |tasks|))
    ensures cons == OrderingCons(done + RowConflicts(tasks, r, capacity, i, |tasks|), BigM(tasks))
  {
    ys, cons := ys0, cons0;
    assert done + [] == done;
    ghost var row: seq<Conflict> := [];
    var j := i + 1;
    while j < |tasks|
      invariant i + 1 <= j <= |tasks|
      invariant row == RowConflicts(tasks, r, capacity, i, j)
      invariant ys == YDecls(done + row) && cons == OrderingCons(done + row, BigM(tasks))
    {
      row, ys, cons := VisitPartner(tasks, r, capacity, i, j, done, row, ys, cons);
      j := j + 1;
    }
  }

  /** The row loop of resource `r`; rows whose task does not use `r` are
      skipped. */
  method AddResourceOrderings(tasks: seq<Task>, r: int, capacity: int,
                              ghost done: seq<Conflict>, ys0: seq<VarDecl>, cons0: seq<Constraint>)
    returns (ys: seq<VarDecl>, cons: seq<Constraint>)
    requires ys0 == YDecls(done) && cons0 == OrderingCons(done, BigM(tasks))
    ensures ys == YDecls(done + ResourceConflicts(tasks, r, capacity, |tasks|))
    ensures cons == OrderingCons(done + ResourceConflicts(tasks, r, capacity, |tasks|), BigM(tasks))
  {
    ys, cons := ys0, cons0;
    assert done + [] == done;
    ghost var rows: seq<Conflict> := [];
    var i := 0;
    while i < |tasks|
      invariant 0 <= i <= |tasks|
      invariant rows == ResourceConflicts(tasks, r, capacity, i)
      invariant ys == YDecls(done + rows) && cons == OrderingCons(done + rows, BigM(tasks))
    {
      ghost var row := RowConflicts(tasks, r, capacity, i, |tasks|);
      assert ResourceConflicts(tasks, r, capacity, i + 1) == rows + (if Usage(tasks[i], r) == 0 then [] else row);
      if Usage(tasks[i], r) == 0 {
        assert rows + [] == rows;
        i := i + 1;
        continue;
      }
      ys, cons := AddRowOrderings(tasks, r, capacity, i, done + rows, ys, cons);
      AppendAssoc(done, rows, row);
      rows := rows + row;
      i := i + 1;
    }
  }

  /** Emits one binary `y` and the two ordering constraints per conflict,
      resource by resource. */
  method DisjunctiveConstraints(tasks: seq<Task>, resources: seq<Resource>, nResources: int)
    returns (ys: seq<VarDecl>, cons: seq<Constraint>)
    requires nResources <= |resources|
    ensures ys == YDecls(Conflicts(tasks, resources, nResources))
    ensures cons == OrderingCons(Conflicts(tasks, resources, nResources), BigM(tasks))
  {
    ys, cons := [], [];
    var r := 0;
    while r < nResources
      invariant 0 <= r && (r <= nResources || r == 0) && r <= |resources|
      invariant ys == YDecls(Conflicts(tasks, resources, r))
      invariant cons == OrderingCons(Conflicts(tasks, resources, r), BigM(tasks))
    {
      var capacity := resources[r].capacity;
      ys, cons := AddResourceOrderings(tasks, r, capacity, Conflicts(tasks, resources, r), ys, cons);
      r := r + 1;
    }
  }

  // ------------------------------------------------------ unavailability

  /** Windows `[lo, hi)` during which a resource is unavailable, per
      resource. */
  type Unavailability = map<int, seq<(int, int)>>

  /** Task `task` must avoid window `[lo, hi)` of resource `r`. */
  datatype Window = Window(task: Task, r: int, lo: int, hi: int)

  function ZOf(w: Window): Var
  {
    Z(w.task.id, w.r, w.lo, w.hi)
  }

  /** `z = 1` forces the task to end by `lo`:
      `start + M·z <= lo - duration + M`. */
  function WindowBefore(w: Window, m: int): Constraint
  {
    Linear([Term(Start(w.task.id), 1), Term(ZOf(w), m)], None, Some(w.lo - w.task.duration + m))
  }

  /** `z = 0` forces the task to start at `hi` or later: `start + M·z >= hi`. */
  function WindowAfter(w: Window, m: int): Constraint
  {
    Linear([Term(Start(w.task.id), 1), Term(ZOf(w), m)], Some(w.hi), None)
  }

  /** The windows of one resource for one task, in list order. */
  function IntervalWindows(t: Task, r: int, intervals: seq<(int, int)>): seq<Window>
  {
    if intervals == [] then []
    else
      var last := intervals[|intervals| - 1];
      IntervalWindows(t, r, intervals[..|intervals| - 1]) + [Window(t, r, last.0, last.1)]
  }

  /** The windows of resources `0 <= r' < r` for task `t`: only resources the
      task uses and that have an entry in the map. */
  function TaskWindows(t: Task, unavailable: Unavailability, r: int): seq<Window>
    decreases r
  {
    if r <= 0 then []
    else
      TaskWindows(t, unavailable, r - 1)
      + (if Usage(t, r - 1) != 0 && r - 1 in unavailable then IntervalWindows(t, r - 1, unavailable[r - 1]) else [])
  }

  function Windows(tasks: seq<Task>, unavailable: Unavailability, nResources: int): seq<Window>
  {
    if tasks == [] then []
    else Windows(tasks[..|tasks| - 1], unavailable, nResources) + TaskWindows(tasks[|tasks| - 1], unavailable, nResources)
  }

  function ZDecls(ws: seq<Window>): seq<VarDecl>
  {
    if ws == [] then [] else ZDecls(ws[..|ws| - 1]) + [BinaryDecl(ZOf(ws[|ws| - 1]))]
  }

  function WindowCons(ws: seq<Window>, m: int): seq<Constraint>
  {
    if ws == [] then []
    else
      var w := ws[|ws| - 1];
      WindowCons(ws[..|ws| - 1], m) + [WindowBefore(w, m), WindowAfter(w, m)]
  }

  lemma WindowsExtend(ws: seq<Window>, w: Window, m: int)
    ensures ZDecls(ws + [w]) == ZDecls(ws) + [BinaryDecl(ZOf(w))]
    ensures WindowCons(ws + [w], m) == WindowCons(ws, m) + [WindowBefore(w, m), WindowAfter(w, m)]
  {
    assert (ws + [w])[..|ws|] == ws;
  }

  /** The interval loop of one (task, resource): one binary `z` and two
      constraints per interval, big-M recomputed each time. */
  method AddIntervalWindows(tasks: seq<Task>, task: Task, r: int, intervals: seq<(int, int)>,
                            ghost done: seq<Window>, zs0: seq<VarDecl>, cons0: seq<Constraint>)
    returns (zs: seq<VarDecl>, cons: seq<Constraint>)
    requires zs0 == ZDecls(done) && cons0 == WindowCons(done, BigM(tasks))
    ensures zs == ZDecls(done + IntervalWindows(task, r, intervals))
    ensures cons == WindowCons(done + IntervalWindows(task, r, intervals), BigM(tasks))
  {
    zs, cons := zs0, cons0;
    assert done + [] == done;
    var k := 0;
    while k < |intervals|
      invariant 0 <= k <= |intervals|
      invariant zs == ZDecls(done + IntervalWindows(task, r, intervals[..k]))
      invariant cons == WindowCons(done + IntervalWindows(task, r, intervals[..k]), BigM(tasks))
    {
      var (lo, hi) := intervals[k];
      var w := Window(task, r, lo, hi);
      zs := zs + [BinaryDecl(ZOf(w))];
      var m := ComputeBigM(tasks);
      cons := cons + [WindowBefore(w, m), WindowAfter(w, m)];
      WindowsExtend(done + IntervalWindows(task, r, intervals[..k]), w, m);
      assert intervals[..k + 1][..k] == intervals[..k];
      assert done + IntervalWindows(task, r, intervals[..k + 1]) == done + IntervalWindows(task, r, intervals[..k]) + [w];
      k := k + 1;
    }
    assert intervals[..k] == intervals;
  }

  /** One more resource extends the windows of a task by that resource's
      intervals, if the task uses it and the map has an entry for it. */
  lemma TaskWindowsStep(task: Task, unavailable: Unavailability, r: int, done: seq<Window>)
    requires 0 <= r
    ensures var now := done + TaskWindows(task, unavailable, r);
            done + TaskWindows(task, unavailable, r + 1)
            == if Usage(task, r) != 0 && r in unavailable then now + IntervalWindows(task, r, unavailable[r]) else now
  {
  }

  /** The resource loop of one task: resources it does not use are skipped,
      and so are resources with no entry in the map. */
  method AddTaskWindows(tasks: seq<Task>, task: Task, unavailable: Unavailability, nResources: int,
                        ghost done: seq<Window>, zs0: seq<VarDecl>, cons0: seq<Constraint>)
    returns (zs: seq<VarDecl>, cons: seq<Constraint>)
    requires zs0 == ZDecls(done) && cons0 == WindowCons(done, BigM(tasks))
    ensures zs == ZDecls(done + TaskWindows(task, unavailable, nResources))
    ensures cons == WindowCons(done + TaskWindows(task, unavailable, nResources), BigM(tasks))
  {
    zs, cons := zs0, cons0;
    assert done + [] == done;
    var r := 0;
    while r < nResources
      invariant 0 <= r && (r <= nResources || r == 0)
      invariant zs == ZDecls(done + TaskWindows(task, unavailable, r))
      invariant cons == WindowCons(done + TaskWindows(task, unavailable, r), BigM(tasks))
    {
      ghost var now := done + TaskWindows(task, unavailable, r);
      TaskWindowsStep(task, unavailable, r, done);
      var usage := Usage(task, r);
      if usage == 0 {
        r := r + 1;
        continue;
      }
      if r in unavailable {
        zs, cons := AddIntervalWindows(tasks, task, r, unavailable[r], now, zs, cons);
      }
      r := r + 1;
    }
    assert TaskWindows(task, unavailable, r) == TaskWindows(task, unavailable, nResources);
  }

  /** Emits one binary `z` and two constraints per window, task by task. */
  method UnavailabilityConstraints(tasks: seq<Task>, unavailable: Unavailability, nResources: int)
    returns (zs: seq<VarDecl>, cons: seq<Constraint>)
    ensures zs == ZDecls(Windows(tasks, unavailable, nResources))
    ensures cons == WindowCons(Windows(tasks, unavailable, nResources), BigM(tasks))
  {
    zs, cons := [], [];
    var i := 0;
    while i < |tasks|
      invariant 0 <= i <= |tasks|
      invariant zs == ZDecls(Windows(tasks[..i], unavailable, nResources))
      invariant cons == WindowCons(Windows(tasks[..i], unavailable, nResources), BigM(tasks))
    {
      zs, cons := AddTaskWindows(tasks, tasks[i], unavailable, nResources, Windows(tasks[..i], unavailable, nResources), zs, cons);
      assert tasks[..i + 1][..i] == tasks[..i];
      assert Windows(tasks[..i + 1], unavailable, nResources)
          == Windows(tasks[..i], unavailable, nResources) + TaskWindows(tasks[i], unavailable, nResources);
      i := i + 1;
    }
    assert tasks[..i] == tasks;
  }

  // ------------------------------------------------- time-indexed capacity

  /** `time_capacity[r][t] = cap`, one point of a resource profile. */
  datatype Point = Point(t: int, cap: int)

  /** The capacity profile of resource `r`, by ascending time. */
  datatype Profile = Profile(r: int, points: seq<Point>)

  /** All configured profiles, by ascending resource. */
  type TimeCapacity = seq<Profile>

  /** The profiles have the shape of an ordered map of ordered maps: strictly
      ascending resources, and strictly ascending times within a profile. */
  predicate OrderedMap(tc: TimeCapacity)
  {
    && (forall i, j :: 0 <= i < j < |tc| ==> tc[i].r < tc[j].r)
    && (forall i, j, k :: 0 <= i < |tc| && 0 <= j < k < |tc[i].points| ==> tc[i].points[j].t < tc[i].points[k].t)
  }

  /** The indicator `x` created for `task` at time `t` while visiting
      resource `r`. */
  datatype Indicator = Indicator(task: Task, r: int, t: int)

  function XOf(d: Indicator): Var
  {
    X(d.task.id, d.r, d.t)
  }

  /** `x = 1` forces the task to have started by `t`:
      `start + M·x <= t + M`. */
  function ActiveLb(d: Indicator, m: int): Constraint
  {
    Linear([Term(Start(d.task.id), 1), Term(XOf(d), m)], None, Some(d.t + m))
  }

  /** `x = 1` forces the task to run past `t`:
      `start - M·x >= t + 1 - duration - M`. */
  function ActiveUb(d: Indicator, m: int): Constraint
  {
    Linear([Term(Start(d.task.id), 1), Term(XOf(d), -m)], Some(d.t + 1 - d.task.duration - m), None)
  }

  function PointIndicators(task: Task, r: int, points: seq<Point>): seq<Indicator>
  {
    if points == [] then []
    else PointIndicators(task, r, points[..|points| - 1]) + [Indicator(task, r, points[|points| - 1].t)]
  }

  function ProfileIndicators(task: Task, tc: TimeCapacity): seq<Indicator>
  {
    if tc == [] then []
    else
      var p := tc[|tc| - 1];
      ProfileIndicators(task, tc[..|tc| - 1]) + PointIndicators(task, p.r, p.points)
  }

  /** The indicators in creation order; tasks of zero duration get none. */
  function Indicators(tasks: seq<Task>, tc: TimeCapacity): seq<Indicator>
  {
    if tasks == [] then []
    else
      var t := tasks[|tasks| - 1];
      Indicators(tasks[..|tasks| - 1], tc) + (if t.duration == 0 then [] else ProfileIndicators(t, tc))
  }

  function XDecls(ds: seq<Indicator>): seq<VarDecl>
  {
    if ds == [] then [] else XDecls(ds[..|ds| - 1]) + [BinaryDecl(XOf(ds[|ds| - 1]))]
  }

  function IndicatorCons(ds: seq<Indicator>, m: int): seq<Constraint>
  {
    if ds == [] then []
    else
      var d := ds[|ds| - 1];
      IndicatorCons(ds[..|ds| - 1], m) + [ActiveLb(d, m), ActiveUb(d, m)]
  }

  /** The `(task id, time)` lookup table after creating `ds` in order: each
      creation overwrites the entry of its key. */
  function XTable(ds: seq<Indicator>): map<(int, int), Var>
  {
    if ds == [] then map[]
    else
      var d := ds[|ds| - 1];
      XTable(ds[..|ds| - 1])[(d.task.id, d.t) := XOf(d)]
  }

  lemma IndicatorsExtend(ds: seq<Indicator>, d: Indicator, m: int)
    ensures XDecls(ds + [d]) == XDecls(ds) + [BinaryDecl(XOf(d))]
    ensures IndicatorCons(ds + [d], m) == IndicatorCons(ds, m) + [ActiveLb(d, m), ActiveUb(d, m)]
    ensures XTable(ds + [d]) == XTable(ds)[(d.task.id, d.t) := XOf(d)]
  {
    assert (ds + [d])[..|ds|] == ds;
  }

  /** The time loop of one (task, profile): one binary `x` and two linking
      constraints per point, each recorded in the table under `(id, t)`. */
  method AddPointIndicators(task: Task, r: int, points: seq<Point>, m: int, ghost done: seq<Indicator>,
                            xs0: seq<VarDecl>, cons0: seq<Constraint>, table0: map<(int, int), Var>)
    returns (xs: seq<VarDecl>, cons: seq<Constraint>, table: map<(int, int), Var>)
    requires xs0 == XDecls(done) && cons0 == IndicatorCons(done, m) && table0 == XTable(done)
    ensures xs == XDecls(done + PointIndicators(task, r, points))
    ensures cons == IndicatorCons(done + PointIndicators(task, r, points), m)
    ensures table == XTable(done + PointIndicators(task, r, points))
  {
    xs, cons, table := xs0, cons0, table0;
    assert done + [] == done;
    var q := 0;
    while q < |points|
      invariant 0 <= q <= |points|
      invariant xs == XDecls(done + PointIndicators(task, r, points[..q]))
      invariant cons == IndicatorCons(done + PointIndicators(task, r, points[..q]), m)
      invariant table == XTable(done + PointIndicators(task, r, points[..q]))
    {
      var t := points[q].t;
      var d := Indicator(task, r, t);
      xs := xs + [BinaryDecl(XOf(d))];
      table := table[(task.id, t) := XOf(d)];
      cons := cons + [ActiveLb(d, m), ActiveUb(d, m)];
      IndicatorsExtend(done + PointIndicators(task, r, points[..q]), d, m);
      assert points[..q + 1][..q] == points[..q];
      assert done + PointIndicators(task, r, points[..q + 1]) == done + PointIndicators(task, r, points[..q]) + [d];
      q := q + 1;
    }
    assert points[..q] == points;
  }

  /** One more profile extends the indicators of a task by that profile's. */
  lemma ProfileIndicatorsStep(task: Task, tc: TimeCapacity, p: nat, done: seq<Indicator>)
    requires p < |tc|
    ensures done + ProfileIndicators(task, tc[..p + 1])
            == done + ProfileIndicators(task, tc[..p]) + PointIndicators(task, tc[p].r, tc[p].points)
  {
    assert tc[..p + 1][..p] == tc[..p];
  }

  /** The profile loop of one task. */
  method AddTaskIndicators(task: Task, tc: TimeCapacity, m: int, ghost done: seq<Indicator>,
                           xs0: seq<VarDecl>, cons0: seq<Constraint>, table0: map<(int, int), Var>)
    returns (xs: seq<VarDecl>, cons: seq<Constraint>, table: map<(int, int), Var>)
    requires xs0 == XDecls(done) && cons0 == IndicatorCons(done, m) && table0 == XTable(done)
    ensures xs == XDecls(done + ProfileIndicators(task, tc))
    ensures cons == IndicatorCons(done + ProfileIndicators(task, tc), m)
    ensures table == XTable(done + ProfileIndicators(task, tc))
  {
    xs, cons, table := xs0, cons0, table0;
    assert done + [] == done;
    var p := 0;
    while p < |tc|
      invariant 0 <= p <= |tc|
      invariant xs == XDecls(done + ProfileIndicators(task, tc[..p]))
      invariant cons == IndicatorCons(done + ProfileIndicators(task, tc[..p]), m)
      invariant table == XTable(done + ProfileIndicators(task, tc[..p]))
    {
      ghost var now := done + ProfileIndicators(task, tc[..p]);
      ProfileIndicatorsStep(task, tc, p, done);
      xs, cons, table := AddPointIndicators(task, tc[p].r, tc[p].points, m, now, xs, cons, table);
      p := p + 1;
    }
    assert tc[..p] == tc;
  }

  /** Emits one binary `x` and two linking constraints per task of non-zero
      duration and configured `(r, t)`, recording each under `(id, t)`; one
      big-M serves the whole family. */
  method IndicatorConstraints(tasks: seq<Task>, tc: TimeCapacity)
    returns (xs: seq<VarDecl>, cons: seq<Constraint>, table: map<(int, int), Var>)
    ensures xs == XDecls(Indicators(tasks, tc))
    ensures cons == IndicatorCons(Indicators(tasks, tc), BigM(tasks))
    ensures table == XTable(Indicators(tasks, tc))
  {
    xs, cons, table := [], [], map[];
    var m := ComputeBigM(tasks);
    var i := 0;
    while i < |tasks|
      invariant 0 <= i <= |tasks|
      invariant xs == XDecls(Indicators(tasks[..i], tc))
      invariant cons == IndicatorCons(Indicators(tasks[..i], tc), m)
      invariant table == XTable(Indicators(tasks[..i], tc))
    {
      var task := tasks[i];
      assert tasks[..i + 1][..i] == tasks[..i];
      assert Indicators(tasks[..i + 1], tc)
          == if task.duration == 0 then Indicators(tasks[..i], tc) else Indicators(tasks[..i], tc) + ProfileIndicators(task, tc);
      if task.duration == 0 {
        i := i + 1;
        continue;
      }
      xs, cons, table := AddTaskIndicators(task, tc, m, Indicators(tasks[..i], tc), xs, cons, table);
      i := i + 1;
    }
    assert tasks[..i] == tasks;
  }

  /** The summands of the capacity constraint of resource `r` at time `t`:
      `usage·x` for every task that uses `r`, has non-zero duration and has
      an entry `(id, t)` in the table, in task order. */
  function CapacityTerms(tasks: seq<Task>, r: int, t: int, table: map<(int, int), Var>): seq<Term>
  {
    if tasks == [] then []
    else
      var task := tasks[|tasks| - 1];
      var usage := Usage(task, r);
      CapacityTerms(tasks[..|tasks| - 1], r, t, table)
      + (if usage == 0 || task.duration == 0 || (task.id, t) !in table then [] else [Term(table[(task.id, t)], usage)])
  }

  /** `Σ usage·x <= cap` for one point of the profile of `r`. */
  function PointCapacity(tasks: seq<Task>, r: int, pt: Point, table: map<(int, int), Var>): Constraint
  {
    Linear(CapacityTerms(tasks, r, pt.t, table), None, Some(pt.cap))
  }

  /** The constraints of the points of one profile; a point with no summand
      emits nothing. */
  function PointCapacities(tasks: seq<Task>, r: int, points: seq<Point>, table: map<(int, int), Var>): seq<Constraint>
  {
    if points == [] then []
    else
      var pt := points[|points| - 1];
      PointCapacities(tasks, r, points[..|points| - 1], table)
      + (if CapacityTerms(tasks, r, pt.t, table) == [] then [] else [PointCapacity(tasks, r, pt, table)])
  }

  function Capacities(tasks: seq<Task>, tc: TimeCapacity, table: map<(int, int), Var>): seq<Constraint>
  {
    if tc == [] then []
    else
      var p := tc[|tc| - 1];
      Capacities(tasks, tc[..|tc| - 1], table) + PointCapacities(tasks, p.r, p.points, table)
  }

  /** Builds the summands of one capacity constraint. */
  method CollectCapacityTerms(tasks: seq<Task>, r: int, t: int, table: map<(int, int), Var>) returns (terms: seq<Term>)
    ensures terms == CapacityTerms(tasks, r, t, table)
  {
    terms := [];
    var i := 0;
    while i < |tasks|
      invariant 0 <= i <= |tasks|
      invariant terms == CapacityTerms(tasks[..i], r, t, table)
    {
      var task := tasks[i];
      assert tasks[..i + 1][..i] == tasks[..i];
      var usage := Usage(task, r);
      if usage == 0 || task.duration == 0 {
        i := i + 1;
        continue;
      }
      if (task.id, t) !in table {
        i := i + 1;
        continue;
      }
      terms := terms + [Term(table[(task.id, t)], usage)];
      i := i + 1;
    }
    assert tasks[..i] == tasks;
  }

  /** One more point extends the constraints of a profile by its own, if its
      sum has a summand. */
  lemma PointCapacitiesStep(tasks: seq<Task>, r: int, points: seq<Point>, q: nat, table: map<(int, int), Var>,
                            cons0: seq<Constraint>)
    requires q < |points|
    ensures var now := cons0 + PointCapacities(tasks, r, points[..q], table);
            cons0 + PointCapacities(tasks, r, points[..q + 1], table)
            == if CapacityTerms(tasks, r, points[q].t, table) == [] then now
               else now + [PointCapacity(tasks, r, points[q], table)]
  {
    assert points[..q + 1][..q] == points[..q];
  }

  /** The constraints one profile contributes, appended to `cons0`. */
  method AddPointCapacities(tasks: seq<Task>, r: int, points: seq<Point>, table: map<(int, int), Var>,
                            cons0: seq<Constraint>)
    returns (cons: seq<Constraint>)
    ensures cons == cons0 + PointCapacities(tasks, r, points, table)
  {
    cons := cons0;
    var q := 0;
    while q < |points|
      invariant 0 <= q <= |points|
      invariant cons == cons0 + PointCapacities(tasks, r, points[..q], table)
    {
      var terms := CollectCapacityTerms(tasks, r, points[q].t, table);
      PointCapacitiesStep(tasks, r, points, q, table, cons0);
      if terms != [] {
        cons := cons + [Linear(terms, None, Some(points[q].cap))];
      }
      q := q + 1;
    }
    assert points[..q] == points;
  }

  /** Emits the capacity constraints, profile by profile and point by point. */
  method CapacityConstraints(tasks: seq<Task>, tc: TimeCapacity, table: map<(int, int), Var>) returns (cons: seq<Constraint>)
    ensures cons == Capacities(tasks, tc, table)
  {
    cons := [];
    var p := 0;
    while p < |tc|
      invariant 0 <= p <= |tc|
      invariant cons == Capacities(tasks, tc[..p], table)
    {
      assert tc[..p + 1][..p] == tc[..p];
      cons := AddPointCapacities(tasks, tc[p].r, tc[p].points, table, cons);
      p := p + 1;
    }
    assert tc[..p] == tc;
  }
}

=== FILE: generator_props.dfy ===
/** What the emitted constraints say: which constraints each family contains
    (membership in both directions), what they force under an integer
    assignment with binary `y`, `z` and `x`, and when the big-M relaxed side
    is harmless. */
module GeneratorProperties {
  import opened Wrappers
  import opened Instance
  import opened Milp
  import opened Generator

  // ------------------------------------------------------- start variables

  /** The set of ids carried by `tasks`. */
  function IdSet(tasks: seq<Task>): (s: set<int>)
    ensures forall id :: id in s <==> HasId(tasks, id)
  {
    set k | 0 <= k < |tasks| :: tasks[k].id
  }

  lemma {:induction false} IdSetSize(tasks: seq<Task>)
    requires DistinctIds(tasks)
    ensures |IdSet(tasks)| == |tasks|
  {
    if tasks != [] {
      var init := tasks[..|tasks| - 1];
      var last := tasks[|tasks| - 1];
      assert DistinctIds(init) by {
        forall i, j | 0 <= i < j < |init| ensures init[i].id != init[j].id {
          assert init[i] == tasks[i] && init[j] == tasks[j];
        }
      }
      IdSetSize(init);
      assert last.id !in IdSet(init);
      forall id ensures id in IdSet(tasks) <==> id in IdSet(init) + {last.id} {
        if id in IdSet(tasks) {
          var k :| 0 <= k < |tasks| && tasks[k].id == id;
          if k < |init| {
            assert init[k].id == id;
          }
        }
        if id in IdSet(init) {
          var k :| 0 <= k < |init| && init[k].id == id;
          assert tasks[k].id == id;
        }
        if id == last.id {
          assert tasks[|tasks| - 1].id == id;
        }
      }
      assert IdSet(tasks) == IdSet(init) + {last.id};
    }
  }

  /** The ids `1..n`. */
  function Ids(n: nat): (s: set<int>)
    ensures forall id :: id in s <==> 1 <= id <= n
    ensures |s| == n
  {
    if n == 0 then {} else Ids(n - 1) + {n}
  }

  /** A subset is no larger than its superset. */
  lemma {:induction false} SubsetSize(a: set<int>, b: set<int>)
    requires a <= b
    ensures |a| <= |b|
  {
    assert b * a == a;
    assert |b - a| == |b| - |b * a|;
  }

  /** When the task list has `nJobs` entries with distinct ids in
      `[1, nJobs]`, every id in that range is carried by some task, so every
      slot of the start-variable vector is filled. */
  lemma EverySlotFilled(tasks: seq<Task>, nJobs: nat)
    requires |tasks| == nJobs && DistinctIds(tasks)
    requires forall k :: 0 <= k < |tasks| ==> 1 <= tasks[k].id <= nJobs
    ensures forall id :: 1 <= id <= nJobs ==> HasId(tasks, id)
  {
    IdSetSize(tasks);
    forall id | 1 <= id <= nJobs ensures HasId(tasks, id) {
      if !HasId(tasks, id) {
        SubsetSize(IdSet(tasks), Ids(nJobs) - {id});
        assert false;
      }
    }
  }

  // ------------------------------------------------------------ precedence

  /** The link a precedence constraint was emitted for. */
  lemma {:induction false} PrecedenceWitness(tasks: seq<Task>, c: Constraint) returns (k: nat, j: nat)
    requires c in Precedences(tasks)
    ensures k < |tasks| && j < |tasks[k].successors| && c == PrecedenceCons(tasks[k], tasks[k].successors[j])
  {
    var init, last := tasks[..|tasks| - 1], tasks[|tasks| - 1];
    var own := TaskPrecedences(last, |last.successors|);
    if c in Precedences(init) {
      k, j := PrecedenceWitness(init, c);
      assert init[k] == tasks[k];
    } else {
      var q :| 0 <= q < |own| && own[q] == c;
      k, j := |tasks| - 1, q;
    }
  }

  lemma {:induction false} PrecedenceEmitted(tasks: seq<Task>, k: nat, j: nat)
    requires k < |tasks| && j < |tasks[k].successors|
    ensures PrecedenceCons(tasks[k], tasks[k].successors[j]) in Precedences(tasks)
  {
    var init, last := tasks[..|tasks| - 1], tasks[|tasks| - 1];
    if k < |init| {
      assert init[k] == tasks[k];
      PrecedenceEmitted(init, k, j);
    } else {
      assert TaskPrecedences(last, |last.successors|)[j] == PrecedenceCons(tasks[k], tasks[k].successors[j]);
    }
  }

  /** The precedence family holds exactly one constraint per (task,
      successor) link: `c` is in it iff it is the constraint of such a link. */
  lemma PrecedencesMember(tasks: seq<Task>, c: Constraint)
    ensures c in Precedences(tasks) <==>
            exists k, j :: 0 <= k < |tasks| && 0 <= j < |tasks[k].successors|
                           && c == PrecedenceCons(tasks[k], tasks[k].successors[j])
  {
    if c in Precedences(tasks) {
      var k, j := PrecedenceWitness(tasks, c);
    }
    if exists k, j :: 0 <= k < |tasks| && 0 <= j < |tasks[k].successors| && c == PrecedenceCons(tasks[k], tasks[k].successors[j]) {
      var k, j :| 0 <= k < |tasks| && 0 <= j < |tasks[k].successors| && c == PrecedenceCons(tasks[k], tasks[k].successors[j]);
      PrecedenceEmitted(tasks, k, j);
    }
  }

  /** Number of (task, successor) links. */
  function LinkCount(tasks: seq<Task>): nat
  {
    if tasks == [] then 0 else LinkCount(tasks[..|tasks| - 1]) + |tasks[|tasks| - 1].successors|
  }

  lemma {:induction false} PrecedencesSize(tasks: seq<Task>)
    ensures |Precedences(tasks)| == LinkCount(tasks)
  {
    if tasks != [] {
      PrecedencesSize(tasks[..|tasks| - 1]);
    }
  }

  /** Start-time reading of one precedence constraint. */
  lemma PrecedenceMeaning(t: Task, succ: int, a: Assignment)
    ensures Holds(PrecedenceCons(t, succ), a) <==> a(Start(succ)) >= a(Start(t.id)) + t.duration
  {
    ActivityOfTwo(Term(Start(succ), 1), Term(Start(t.id), -1), a);
  }

  /** Every successor starts no earlier than its predecessor finishes. */
  predicate PrecedencesRespected(tasks: seq<Task>, a: Assignment)
  {
    forall k, j :: 0 <= k < |tasks| && 0 <= j < |tasks[k].successors| ==>
      a(Start(tasks[k].successors[j])) >= a(Start(tasks[k].id)) + tasks[k].duration
  }

  lemma PrecedencesExact(tasks: seq<Task>, a: Assignment)
    ensures Satisfies(Precedences(tasks), a) <==> PrecedencesRespected(tasks, a)
  {
    if Satisfies(Precedences(tasks), a) {
      forall k, j | 0 <= k < |tasks| && 0 <= j < |tasks[k].successors|
        ensures a(Start(tasks[k].successors[j])) >= a(Start(tasks[k].id)) + tasks[k].duration
      {
        var c := PrecedenceCons(tasks[k], tasks[k].successors[j]);
        PrecedencesMember(tasks, c);
        PrecedenceMeaning(tasks[k], tasks[k].successors[j], a);
      }
    }
    if PrecedencesRespected(tasks, a) {
      forall c | c in Precedences(tasks) ensures Holds(c, a) {
        PrecedencesMember(tasks, c);
        var k, j :| 0 <= k < |tasks| && 0 <= j < |tasks[k].successors| && c == PrecedenceCons(tasks[k], tasks[k].successors[j]);
        PrecedenceMeaning(tasks[k], tasks[k].successors[j], a);
      }
    }
  }

  // -------------------------------------------------------------- makespan

  /** One makespan constraint per task, in task order. */
  lemma {:induction false} MakespansAt(tasks: seq<Task>)
    ensures |Makespans(tasks)| == |tasks|
    ensures forall k :: 0 <= k < |tasks| ==> Makespans(tasks)[k] == MakespanCons(tasks[k])
  {
    if tasks != [] {
      var init := tasks[..|tasks| - 1];
      MakespansAt(init);
      forall k | 0 <= k < |init| ensures Makespans(tasks)[k] == MakespanCons(tasks[k]) {
        assert init[k] == tasks[k];
      }
    }
  }

  lemma MakespanMeaning(t: Task, a: Assignment)
    ensures Holds(MakespanCons(t), a) <==> a(Makespan) >= a(Start(t.id)) + t.duration
  {
    ActivityOfTwo(Term(Makespan, 1), Term(Start(t.id), -1), a);
  }

  /** The makespan constraints hold iff the makespan is at least every
      task's finish time. */
  lemma MakespansExact(tasks: seq<Task>, a: Assignment)
    ensures Satisfies(Makespans(tasks), a) <==>
            forall k :: 0 <= k < |tasks| ==> a(Makespan) >= a(Start(tasks[k].id)) + tasks[k].duration
  {
    var cons := Makespans(tasks);
    MakespansAt(tasks);
    if Satisfies(cons, a) {
      forall k | 0 <= k < |tasks| ensures a(Makespan) >= a(Start(tasks[k].id)) + tasks[k].duration {
        assert Holds(cons[k], a);
        MakespanMeaning(tasks[k], a);
      }
    }
    if forall k :: 0 <= k < |tasks| ==> a(Makespan) >= a(Start(tasks[k].id)) + tasks[k].duration {
      forall c | c in cons ensures Holds(c, a) {
        var k :| 0 <= k < |cons| && cons[k] == c;
        MakespanMeaning(tasks[k], a);
      }
    }
  }

  // ----------------------------------------------------------- disjunctive

  /** The partner `j'` a row conflict was emitted for. */
  lemma {:induction false} RowWitness(tasks: seq<Task>, r: int, capacity: int, i: nat, j: int, c: Conflict) returns (j': int)
    requires i < |tasks| && j <= |tasks|
    requires c in RowConflicts(tasks, r, capacity, i, j)
    ensures i < j' < j && c == Conflict(r, tasks[i], tasks[j'])
    ensures Usage(tasks[j'], r) != 0 && Usage(tasks[i], r) + Usage(tasks[j'], r) > capacity
    decreases j
  {
    var before := RowConflicts(tasks, r, capacity, i, j - 1);
    if c in before {
      j' := RowWitness(tasks, r, capacity, i, j - 1, c);
    } else {
      j' := j - 1;
      assert c == Conflict(r, tasks[i], tasks[j']);
    }
  }

  lemma {:induction false} RowEmitted(tasks: seq<Task>, r: int, capacity: int, i: nat, j: int, j': int)
    requires i < j' < j <= |tasks|
    requires Usage(tasks[j'], r) != 0 && Usage(tasks[i], r) + Usage(tasks[j'], r) > capacity
    ensures Conflict(r, tasks[i], tasks[j']) in RowConflicts(tasks, r, capacity, i, j)
    decreases j
  {
    if j' < j - 1 {
      RowEmitted(tasks, r, capacity, i, j - 1, j');
    }
  }

  /** The pair a conflict of one resource was emitted for. */
  lemma {:induction false} ResourceWitness(tasks: seq<Task>, r: int, capacity: int, i: nat, c: Conflict) returns (i': int, j': int)
    requires i <= |tasks|
    requires c in ResourceConflicts(tasks, r, capacity, i)
    ensures 0 <= i' < j' < |tasks| && i' < i && c == Conflict(r, tasks[i'], tasks[j'])
    ensures Clash(tasks[i'], tasks[j'], r, capacity)
  {
    var before := ResourceConflicts(tasks, r, capacity, i - 1);
    if c in before {
      i', j' := ResourceWitness(tasks, r, capacity, i - 1, c);
    } else {
      var row := RowConflicts(tasks, r, capacity, i - 1, |tasks|);
      assert ResourceConflicts(tasks, r, capacity, i) == before + (if Usage(tasks[i - 1], r) == 0 then [] else row);
      assert Usage(tasks[i - 1], r) != 0 && c in row;
      i' := i - 1;
      j' := RowWitness(tasks, r, capacity, i - 1, |tasks|, c);
    }
  }

  lemma {:induction false} ResourceEmitted(tasks: seq<Task>, r: int, capacity: int, i: nat, i': int, j': int)
    requires 0 <= i' < j' < |tasks| && i' < i <= |tasks|
    requires Clash(tasks[i'], tasks[j'], r, capacity)
    ensures Conflict(r, tasks[i'], tasks[j']) in ResourceConflicts(tasks, r, capacity, i)
  {
    if i' < i - 1 {
      ResourceEmitted(tasks, r, capacity, i - 1, i', j');
    } else {
      RowEmitted(tasks, r, capacity, i - 1, |tasks|, j');
    }
  }

  /** The resource and pair a conflict was emitted for. */
  lemma {:induction false} ConflictWitness(tasks: seq<Task>, resources: seq<Resource>, n: int, c: Conflict)
    returns (r: int, i: int, j: int)
    requires n <= |resources|
    requires c in Conflicts(tasks, resources, n)
    ensures 0 <= r < n && 0 <= i < j < |tasks| && c == Conflict(r, tasks[i], tasks[j])
    ensures Clash(tasks[i], tasks[j], r, resources[r].capacity)
    decreases n
  {
    if c in Conflicts(tasks, resources, n - 1) {
      r, i, j := ConflictWitness(tasks, resources, n - 1, c);
    } else {
      assert c in ResourceConflicts(tasks, n - 1, resources[n - 1].capacity, |tasks|);
      r := n - 1;
      i, j := ResourceWitness(tasks, n - 1, resources[n - 1].capacity, |tasks|, c);
    }
  }

  lemma {:induction false} ConflictEmitted(tasks: seq<Task>, resources: seq<Resource>, n: int, r: int, i: int, j: int)
    requires n <= |resources| && 0 <= r < n && 0 <= i < j < |tasks|
    requires Clash(tasks[i], tasks[j], r, resources[r].capacity)
    ensures Conflict(r, tasks[i], tasks[j]) in Conflicts(tasks, resources, n)
    decreases n
  {
    var c := Conflict(r, tasks[i], tasks[j]);
    var before := Conflicts(tasks, resources, n - 1);
    var more := ResourceConflicts(tasks, n - 1, resources[n - 1].capacity, |tasks|);
    assert Conflicts(tasks, resources, n) == before + more;
    if r < n - 1 {
      ConflictEmitted(tasks, resources, n - 1, r, i, j);
      assert c in before;
    } else {
      ResourceEmitted(tasks, r, resources[r].capacity, |tasks|, i, j);
      assert c in more;
    }
  }

  /** `c` is a conflict iff it pairs, on some resource `r < n`, a task with a
      later task, both using `r` and together exceeding its capacity. */
  lemma ConflictsMember(tasks: seq<Task>, resources: seq<Resource>, n: int, c: Conflict)
    requires n <= |resources|
    ensures c in Conflicts(tasks, resources, n) <==>
            exists r, i, j :: 0 <= r < n && 0 <= i < j < |tasks| && c == Conflict(r, tasks[i], tasks[j])
                              && Clash(tasks[i], tasks[j], r, resources[r].capacity)
  {
    if c in Conflicts(tasks, resources, n) {
      var r, i, j := ConflictWitness(tasks, resources, n, c);
    }
    if exists r, i, j :: 0 <= r < n && 0 <= i < j < |tasks| && c == Conflict(r, tasks[i], tasks[j])
                         && Clash(tasks[i], tasks[j], r, resources[r].capacity) {
      var r, i, j :| 0 <= r < n && 0 <= i < j < |tasks| && c == Conflict(r, tasks[i], tasks[j])
                     && Clash(tasks[i], tasks[j], r, resources[r].capacity);
      ConflictEmitted(tasks, resources, n, r, i, j);
    }
  }

  /** For a pair `i < j` on a resource `r < n`: the pair gets a `y` and its
      two ordering constraints iff both tasks use `r` and their usages
      together exceed its capacity. */
  lemma ConflictExact(tasks: seq<Task>, resources: seq<Resource>, n: int, r: int, i: int, j: int)
    requires n <= |resources| && 0 <= r < n && 0 <= i < j < |tasks|
    ensures Conflict(r, tasks[i], tasks[j]) in Conflicts(tasks, resources, n)
            <==> Clash(tasks[i], tasks[j], r, resources[r].capacity)
  {
    var c := Conflict(r, tasks[i], tasks[j]);
    if c in Conflicts(tasks, resources, n) {
      var r', i', j' := ConflictWitness(tasks, resources, n, c);
    }
    if Clash(tasks[i], tasks[j], r, resources[r].capacity) {
      ConflictEmitted(tasks, resources, n, r, i, j);
    }
  }

  /** Position `k` of the conflict list owns `y` number `k` and the
      constraints `2k`, `2k + 1`. */
  lemma {:induction false} OrderingAt(cs: seq<Conflict>, m: int)
    ensures |YDecls(cs)| == |cs| && |OrderingCons(cs, m)| == 2 * |cs|
    ensures forall k :: 0 <= k < |cs| ==> YDecls(cs)[k] == BinaryDecl(YOf(cs[k]))
    ensures forall k :: 0 <= k < |cs| ==>
              OrderingCons(cs, m)[2 * k] == OrderFirst(cs[k], m) && OrderingCons(cs, m)[2 * k + 1] == OrderSecond(cs[k], m)
  {
    if cs != [] {
      var init := cs[..|cs| - 1];
      OrderingAt(init, m);
      forall k | 0 <= k < |init|
        ensures YDecls(cs)[k] == BinaryDecl(YOf(cs[k]))
        ensures OrderingCons(cs, m)[2 * k] == OrderFirst(cs[k], m) && OrderingCons(cs, m)[2 * k + 1] == OrderSecond(cs[k], m)
      {
        assert init[k] == cs[k];
      }
    }
  }

  /** A binary `y` with both ordering constraints in force orders the pair:
      `y = 1` puts `first` before `second`, `y = 0` the other way round. */
  lemma OrderingSound(c: Conflict, m: int, a: Assignment)
    requires a(YOf(c)) == 0 || a(YOf(c)) == 1
    requires Holds(OrderFirst(c, m), a) && Holds(OrderSecond(c, m), a)
    ensures a(YOf(c)) == 1 ==> a(Start(c.second.id)) >= a(Start(c.first.id)) + c.first.duration
    ensures a(YOf(c)) == 0 ==> a(Start(c.first.id)) >= a(Start(c.second.id)) + c.second.duration
  {
    ActivityOfThree(Term(Start(c.second.id), 1), Term(Start(c.first.id), -1), Term(YOf(c), -m), a);
    ActivityOfThree(Term(Start(c.first.id), 1), Term(Start(c.second.id), -1), Term(YOf(c), m), a);
  }

  /** When both tasks start at or after 0 and finish by `m`, the constraint
      that `y` switches off is always met, so the pair of constraints says
      exactly what `y` chooses. */
  lemma OrderingExact(c: Conflict, m: int, a: Assignment)
    requires a(YOf(c)) == 0 || a(YOf(c)) == 1
    requires 0 <= a(Start(c.first.id)) && a(Start(c.first.id)) + c.first.duration <= m
    requires 0 <= a(Start(c.second.id)) && a(Start(c.second.id)) + c.second.duration <= m
    ensures Holds(OrderFirst(c, m), a) && Holds(OrderSecond(c, m), a) <==>
            (a(YOf(c)) == 1 ==> a(Start(c.second.id)) >= a(Start(c.first.id)) + c.first.duration)
            && (a(YOf(c)) == 0 ==> a(Start(c.first.id)) >= a(Start(c.second.id)) + c.second.duration)
  {
    ActivityOfThree(Term(Start(c.second.id), 1), Term(Start(c.first.id), -1), Term(YOf(c), -m), a);
    ActivityOfThree(Term(Start(c.first.id), 1), Term(Start(c.second.id), -1), Term(YOf(c), m), a);
  }

  /** Two tasks that clash on a resource never overlap in a solution: the
      binary `y` of their pair decides which one runs first. */
  lemma ClashingTasksOrdered(tasks: seq<Task>, resources: seq<Resource>, n: int, a: Assignment, r: int, i: int, j: int)
    requires n <= |resources| && 0 <= r < n && 0 <= i < j < |tasks|
    requires Clash(tasks[i], tasks[j], r, resources[r].capacity)
    requires Satisfies(OrderingCons(Conflicts(tasks, resources, n), BigM(tasks)), a)
    requires a(Y(tasks[i].id, tasks[j].id, r)) == 0 || a(Y(tasks[i].id, tasks[j].id, r)) == 1
    ensures a(Y(tasks[i].id, tasks[j].id, r)) == 1 ==> a(Start(tasks[j].id)) >= a(Start(tasks[i].id)) + tasks[i].duration
    ensures a(Y(tasks[i].id, tasks[j].id, r)) == 0 ==> a(Start(tasks[i].id)) >= a(Start(tasks[j].id)) + tasks[j].duration
  {
    var cs := Conflicts(tasks, resources, n);
    var c := Conflict(r, tasks[i], tasks[j]);
    var m := BigM(tasks);
    ConflictExact(tasks, resources, n, r, i, j);
    var k :| 0 <= k < |cs| && cs[k] == c;
    OrderingAt(cs, m);
    assert OrderingCons(cs, m)[2 * k] in OrderingCons(cs, m);
    assert OrderingCons(cs, m)[2 * k + 1] in OrderingCons(cs, m);
    OrderingSound(c, m, a);
  }

  // ------------------------------------------------------ unavailability

  lemma {:induction false} IntervalWindowsMember(t: Task, r: int, intervals: seq<(int, int)>, w: Window)
    ensures w in IntervalWindows(t, r, intervals) <==> w.task == t && w.r == r && (w.lo, w.hi) in intervals
  {
    if intervals != [] {
      var init := intervals[..|intervals| - 1];
      IntervalWindowsMember(t, r, init, w);
      assert intervals == init + [intervals[|intervals| - 1]];
    }
  }

  /** `w` keeps `t` out of one interval of a resource that `t` uses. */
  predicate Blocks(t: Task, unavailable: Unavailability, w: Window)
  {
    w.task == t && 0 <= w.r && Usage(t, w.r) != 0 && w.r in unavailable && (w.lo, w.hi) in unavailable[w.r]
  }

  lemma {:induction false} TaskWindowsMember(t: Task, unavailable: Unavailability, r: int, w: Window)
    ensures w in TaskWindows(t, unavailable, r) <==> Blocks(t, unavailable, w) && w.r < r
    decreases r
  {
    if r > 0 {
      TaskWindowsMember(t, unavailable, r - 1, w);
      if w.r == r - 1 && Usage(t, r - 1) != 0 && r - 1 in unavailable {
        IntervalWindowsMember(t, r - 1, unavailable[r - 1], w);
      } else if Usage(t, r - 1) != 0 && r - 1 in unavailable {
        IntervalWindowsMember(t, r - 1, unavailable[r - 1], w);
        assert w !in IntervalWindows(t, r - 1, unavailable[r - 1]) || w.r == r - 1;
      }
    }
  }

  /** The task position a window was emitted for. */
  lemma {:induction false} WindowWitness(tasks: seq<Task>, unavailable: Unavailability, nResources: int, w: Window) returns (k: nat)
    requires w in Windows(tasks, unavailable, nResources)
    ensures k < |tasks| && tasks[k] == w.task && Blocks(w.task, unavailable, w) && w.r < nResources
  {
    var init, last := tasks[..|tasks| - 1], tasks[|tasks| - 1];
    if w in Windows(init, unavailable, nResources) {
      k := WindowWitness(init, unavailable, nResources, w);
      assert init[k] == tasks[k];
    } else {
      k := |tasks| - 1;
      TaskWindowsMember(last, unavailable, nResources, w);
    }
  }

  lemma {:induction false} WindowEmitted(tasks: seq<Task>, unavailable: Unavailability, nResources: int, k: nat, w: Window)
    requires k < |tasks| && tasks[k] == w.task && Blocks(w.task, unavailable, w) && w.r < nResources
    ensures w in Windows(tasks, unavailable, nResources)
  {
    var init, last := tasks[..|tasks| - 1], tasks[|tasks| - 1];
    if k < |init| {
      assert init[k] == tasks[k];
      WindowEmitted(init, unavailable, nResources, k, w);
    } else {
      TaskWindowsMember(last, unavailable, nResources, w);
    }
  }

  /** A window is emitted iff its task is in the list, its resource is below
      `nResources`, used by the task and configured, and `[lo, hi)` is one of
      that resource's intervals. */
  lemma WindowsMember(tasks: seq<Task>, unavailable: Unavailability, nResources: int, w: Window)
    ensures w in Windows(tasks, unavailable, nResources) <==>
            (exists k :: 0 <= k < |tasks| && tasks[k] == w.task) && Blocks(w.task, unavailable, w) && w.r < nResources
  {
    if w in Windows(tasks, unavailable, nResources) {
      var k := WindowWitness(tasks, unavailable, nResources, w);
    }
    if (exists k :: 0 <= k < |tasks| && tasks[k] == w.task) && Blocks(w.task, unavailable, w) && w.r < nResources {
      var k :| 0 <= k < |tasks| && tasks[k] == w.task;
      WindowEmitted(tasks, unavailable, nResources, k, w);
    }
  }

  lemma {:induction false} WindowsAt(ws: seq<Window>, m: int)
    ensures |ZDecls(ws)| == |ws| && |WindowCons(ws, m)| == 2 * |ws|
    ensures forall k :: 0 <= k < |ws| ==> ZDecls(ws)[k] == BinaryDecl(ZOf(ws[k]))
    ensures forall k :: 0 <= k < |ws| ==>
              WindowCons(ws, m)[2 * k] == WindowBefore(ws[k], m) && WindowCons(ws, m)[2 * k + 1] == WindowAfter(ws[k], m)
  {
    if ws != [] {
      var init := ws[..|ws| - 1];
      WindowsAt(init, m);
      forall k | 0 <= k < |init|
        ensures ZDecls(ws)[k] == BinaryDecl(ZOf(ws[k]))
        ensures WindowCons(ws, m)[2 * k] == WindowBefore(ws[k], m) && WindowCons(ws, m)[2 * k + 1] == WindowAfter(ws[k], m)
      {
        assert init[k] == ws[k];
      }
    }
  }

  /** A binary `z` with both window constraints in force keeps the task out
      of `[lo, hi)`: `z = 1` ends it by `lo`, `z = 0` starts it at `hi` or
      later. */
  lemma WindowSound(w: Window, m: int, a: Assignment)
    requires a(ZOf(w)) == 0 || a(ZOf(w)) == 1
    requires Holds(WindowBefore(w, m), a) && Holds(WindowAfter(w, m), a)
    ensures a(ZOf(w)) == 1 ==> a(Start(w.task.id)) + w.task.duration <= w.lo
    ensures a(ZOf(w)) == 0 ==> a(Start(w.task.id)) >= w.hi
  {
    ActivityOfTwo(Term(Start(w.task.id), 1), Term(ZOf(w), m), a);
  }

  /** With the task inside `[0, m]` and the window inside `[0, m]`, the
      switched-off side is always met. */
  lemma WindowExact(w: Window, m: int, a: Assignment)
    requires a(ZOf(w)) == 0 || a(ZOf(w)) == 1
    requires 0 <= a(Start(w.task.id)) && a(Start(w.task.id)) + w.task.duration <= m
    requires 0 <= w.lo && w.hi <= m
    ensures Holds(WindowBefore(w, m), a) && Holds(WindowAfter(w, m), a) <==>
            (a(ZOf(w)) == 1 ==> a(Start(w.task.id)) + w.task.duration <= w.lo)
            && (a(ZOf(w)) == 0 ==> a(Start(w.task.id)) >= w.hi)
  {
    ActivityOfTwo(Term(Start(w.task.id), 1), Term(ZOf(w), m), a);
  }

  /** In a solution, a task that uses a resource with an unavailability
      interval `[lo, hi)` runs entirely before `lo` or entirely from `hi`. */
  lemma WindowAvoided(tasks: seq<Task>, unavailable: Unavailability, nResources: int, a: Assignment, w: Window)
    requires w in Windows(tasks, unavailable, nResources)
    requires Satisfies(WindowCons(Windows(tasks, unavailable, nResources), BigM(tasks)), a)
    requires a(ZOf(w)) == 0 || a(ZOf(w)) == 1
    ensures a(Start(w.task.id)) + w.task.duration <= w.lo || a(Start(w.task.id)) >= w.hi
  {
    var ws := Windows(tasks, unavailable, nResources);
    var m := BigM(tasks);
    var k :| 0 <= k < |ws| && ws[k] == w;
    WindowsAt(ws, m);
    assert WindowCons(ws, m)[2 * k] in WindowCons(ws, m);
    assert WindowCons(ws, m)[2 * k + 1] in WindowCons(ws, m);
    WindowSound(w, m, a);
  }

  // ------------------------------------------------- time-indexed indicators

  lemma {:induction false} PointIndicatorWitness(task: Task, r: int, points: seq<Point>, d: Indicator) returns (q: nat)
    requires d in PointIndicators(task, r, points)
    ensures q < |points| && d == Indicator(task, r, points[q].t)
  {
    var init := points[..|points| - 1];
    if d in PointIndicators(task, r, init) {
      q := PointIndicatorWitness(task, r, init, d);
      assert init[q] == points[q];
    } else {
      q := |points| - 1;
    }
  }

  lemma {:induction false} PointIndicatorEmitted(task: Task, r: int, points: seq<Point>, q: nat)
    requires q < |points|
    ensures Indicator(task, r, points[q].t) in PointIndicators(task, r, points)
  {
    var init := points[..|points| - 1];
    if q < |init| {
      assert init[q] == points[q];
      PointIndicatorEmitted(task, r, init, q);
    }
  }

  lemma {:induction false} ProfileIndicatorWitness(task: Task, tc: TimeCapacity, d: Indicator) returns (p: nat, q: nat)
    requires d in ProfileIndicators(task, tc)
    ensures p < |tc| && q < |tc[p].points| && d == Indicator(task, tc[p].r, tc[p].points[q].t)
  {
    var init, last := tc[..|tc| - 1], tc[|tc| - 1];
    if d in ProfileIndicators(task, init) {
      p, q := ProfileIndicatorWitness(task, init, d);
      assert init[p] == tc[p];
    } else {
      p := |tc| - 1;
      q := PointIndicatorWitness(task, last.r, last.points, d);
    }
  }

  lemma {:induction false} ProfileIndicatorEmitted(task: Task, tc: TimeCapacity, p: nat, q: nat)
    requires p < |tc| && q < |tc[p].points|
    ensures Indicator(task, tc[p].r, tc[p].points[q].t) in ProfileIndicators(task, tc)
  {
    var init, last := tc[..|tc| - 1], tc[|tc| - 1];
    if p < |init| {
      assert init[p] == tc[p];
      ProfileIndicatorEmitted(task, init, p, q);
    } else {
      PointIndicatorEmitted(task, last.r, last.points, q);
    }
  }

  /** The task and configured `(r, t)` an indicator was emitted for. */
  lemma {:induction false} IndicatorWitness(tasks: seq<Task>, tc: TimeCapacity, d: Indicator) returns (k: nat, p: nat, q: nat)
    requires d in Indicators(tasks, tc)
    ensures k < |tasks| && tasks[k].duration != 0 && p < |tc| && q < |tc[p].points|
    ensures d == Indicator(tasks[k], tc[p].r, tc[p].points[q].t)
  {
    var init, last := tasks[..|tasks| - 1], tasks[|tasks| - 1];
    if d in Indicators(init, tc) {
      k, p, q := IndicatorWitness(init, tc, d);
      assert init[k] == tasks[k];
    } else {
      k := |tasks| - 1;
      p, q := ProfileIndicatorWitness(last, tc, d);
    }
  }

  lemma {:induction false} IndicatorEmitted(tasks: seq<Task>, tc: TimeCapacity, k: nat, p: nat, q: nat)
    requires k < |tasks| && tasks[k].duration != 0 && p < |tc| && q < |tc[p].points|
    ensures Indicator(tasks[k], tc[p].r, tc[p].points[q].t) in Indicators(tasks, tc)
  {
    var d := Indicator(tasks[k], tc[p].r, tc[p].points[q].t);
    var init, last := tasks[..|tasks| - 1], tasks[|tasks| - 1];
    var before := Indicators(init, tc);
    var more := if last.duration == 0 then [] else ProfileIndicators(last, tc);
    assert Indicators(tasks, tc) == before + more;
    if k < |init| {
      assert init[k] == tasks[k];
      IndicatorEmitted(init, tc, k, p, q);
      assert d in before;
    } else {
      assert tasks[k] == last;
      ProfileIndicatorEmitted(last, tc, p, q);
      assert d in more;
    }
  }

  /** An indicator exists for every task of non-zero duration and every
      configured `(r, t)`, whether or not the task uses `r`, and for nothing
      else. */
  lemma IndicatorsMember(tasks: seq<Task>, tc: TimeCapacity, d: Indicator)
    ensures d in Indicators(tasks, tc) <==>
            exists k, p, q :: 0 <= k < |tasks| && tasks[k].duration != 0 && 0 <= p < |tc| && 0 <= q < |tc[p].points|
                              && d == Indicator(tasks[k], tc[p].r, tc[p].points[q].t)
  {
    if d in Indicators(tasks, tc) {
      var k, p, q := IndicatorWitness(tasks, tc, d);
    }
    if exists k, p, q :: 0 <= k < |tasks| && tasks[k].duration != 0 && 0 <= p < |tc| && 0 <= q < |tc[p].points|
                         && d == Indicator(tasks[k], tc[p].r, tc[p].points[q].t) {
      var k, p, q :| 0 <= k < |tasks| && tasks[k].duration != 0 && 0 <= p < |tc| && 0 <= q < |tc[p].points|
                     && d == Indicator(tasks[k], tc[p].r, tc[p].points[q].t);
      IndicatorEmitted(tasks, tc, k, p, q);
    }
  }

  lemma {:induction false} IndicatorsAt(ds: seq<Indicator>, m: int)
    ensures |XDecls(ds)| == |ds| && |IndicatorCons(ds, m)| == 2 * |ds|
    ensures forall k :: 0 <= k < |ds| ==> XDecls(ds)[k] == BinaryDecl(XOf(ds[k]))
    ensures forall k :: 0 <= k < |ds| ==>
              IndicatorCons(ds, m)[2 * k] == ActiveLb(ds[k], m) && IndicatorCons(ds, m)[2 * k + 1] == ActiveUb(ds[k], m)
  {
    if ds != [] {
      var init := ds[..|ds| - 1];
      IndicatorsAt(init, m);
      forall k | 0 <= k < |init|
        ensures XDecls(ds)[k] == BinaryDecl(XOf(ds[k]))
        ensures IndicatorCons(ds, m)[2 * k] == ActiveLb(ds[k], m) && IndicatorCons(ds, m)[2 * k + 1] == ActiveUb(ds[k], m)
      {
        assert init[k] == ds[k];
      }
    }
  }

  /** `x = 1` with both linking constraints in force means the task is
      running at `t`: started by `t` and not finished before `t + 1`. */
  lemma IndicatorSound(d: Indicator, m: int, a: Assignment)
    requires a(XOf(d)) == 1
    requires Holds(ActiveLb(d, m), a) && Holds(ActiveUb(d, m), a)
    ensures a(Start(d.task.id)) <= d.t && a(Start(d.task.id)) + d.task.duration >= d.t + 1
  {
    ActivityOfTwo(Term(Start(d.task.id), 1), Term(XOf(d), m), a);
    ActivityOfTwo(Term(Start(d.task.id), 1), Term(XOf(d), -m), a);
  }

  /** The converse does not hold: `x = 0` meets both linking constraints
      wherever the task runs inside the horizon, including when it is
      running at `t`. */
  lemma IndicatorNotForced(d: Indicator, m: int, a: Assignment)
    requires a(XOf(d)) == 0
    requires 0 <= a(Start(d.task.id)) <= m && d.task.duration >= 0
    requires 0 <= d.t < m
    ensures Holds(ActiveLb(d, m), a) && Holds(ActiveUb(d, m), a)
  {
    ActivityOfTwo(Term(Start(d.task.id), 1), Term(XOf(d), m), a);
    ActivityOfTwo(Term(Start(d.task.id), 1), Term(XOf(d), -m), a);
  }

  /** What the first linking constraint demands of a binary `x`: the task
      has started by `t` when `x = 1`, and by `t + M` when `x = 0`. */
  lemma IndicatorCutOff(d: Indicator, m: int, a: Assignment)
    requires a(XOf(d)) == 0 || a(XOf(d)) == 1
    ensures Holds(ActiveLb(d, m), a) <==>
            (a(XOf(d)) == 1 ==> a(Start(d.task.id)) <= d.t)
            && (a(XOf(d)) == 0 ==> a(Start(d.task.id)) <= d.t + m)
  {
    ActivityOfTwo(Term(Start(d.task.id), 1), Term(XOf(d), m), a);
  }

  /** So the indicator family does restrict schedules: in any solution with
      binary `x` and a non-negative big-M, every task of non-zero duration
      starts by `t + M` for every configured time `t`. */
  lemma IndicatorsCutOff(tasks: seq<Task>, tc: TimeCapacity, a: Assignment)
    requires BigM(tasks) >= 0
    requires Satisfies(IndicatorCons(Indicators(tasks, tc), BigM(tasks)), a)
    requires forall id, r, t :: a(X(id, r, t)) == 0 || a(X(id, r, t)) == 1
    ensures forall k, p, q :: 0 <= k < |tasks| && tasks[k].duration != 0 && 0 <= p < |tc| && 0 <= q < |tc[p].points| ==>
              a(Start(tasks[k].id)) <= tc[p].points[q].t + BigM(tasks)
  {
    var m, ds := BigM(tasks), Indicators(tasks, tc);
    IndicatorsAt(ds, m);
    forall k, p, q | 0 <= k < |tasks| && tasks[k].duration != 0 && 0 <= p < |tc| && 0 <= q < |tc[p].points|
      ensures a(Start(tasks[k].id)) <= tc[p].points[q].t + m
    {
      var d := Indicator(tasks[k], tc[p].r, tc[p].points[q].t);
      IndicatorEmitted(tasks, tc, k, p, q);
      var i :| 0 <= i < |ds| && ds[i] == d;
      assert IndicatorCons(ds, m)[2 * i] == ActiveLb(d, m);
      assert Holds(ActiveLb(d, m), a);
      IndicatorCutOff(d, m, a);
    }
  }

  /** Every linking constraint belongs to one of the indicators. */
  lemma {:induction false} IndicatorConsMember(ds: seq<Indicator>, m: int, c: Constraint)
    requires c in IndicatorCons(ds, m)
    ensures exists d :: d in ds && (c == ActiveLb(d, m) || c == ActiveUb(d, m))
  {
    var init, last := ds[..|ds| - 1], ds[|ds| - 1];
    if c in IndicatorCons(init, m) {
      IndicatorConsMember(init, m, c);
      var d :| d in init && (c == ActiveLb(d, m) || c == ActiveUb(d, m));
      assert d in ds;
    } else {
      assert last in ds;
    }
  }

  /** The linking constraints of one emitted indicator hold at `x = 0`. */
  lemma IndicatorIdle(tasks: seq<Task>, tc: TimeCapacity, a: Assignment, d: Indicator)
    requires forall k :: 0 <= k < |tasks| ==> 0 <= a(Start(tasks[k].id)) <= BigM(tasks) && tasks[k].duration >= 0
    requires forall p, q :: 0 <= p < |tc| && 0 <= q < |tc[p].points| ==> 0 <= tc[p].points[q].t < BigM(tasks)
    requires a(XOf(d)) == 0
    requires d in Indicators(tasks, tc)
    ensures Holds(ActiveLb(d, BigM(tasks)), a) && Holds(ActiveUb(d, BigM(tasks)), a)
  {
    var k, p, q := IndicatorWitness(tasks, tc, d);
    IndicatorNotForced(d, BigM(tasks), a);
  }

  /** Setting every `x` to 0 meets all linking constraints whenever each
      start lies in `[0, M]`, durations are not negative and every configured
      time lies in `[0, M)`. */
  lemma IndicatorsNeverBind(tasks: seq<Task>, tc: TimeCapacity, a: Assignment)
    requires forall k :: 0 <= k < |tasks| ==> 0 <= a(Start(tasks[k].id)) <= BigM(tasks) && tasks[k].duration >= 0
    requires forall p, q :: 0 <= p < |tc| && 0 <= q < |tc[p].points| ==> 0 <= tc[p].points[q].t < BigM(tasks)
    requires forall id, r, t :: a(X(id, r, t)) == 0
    ensures Satisfies(IndicatorCons(Indicators(tasks, tc), BigM(tasks)), a)
  {
    var ds, m := Indicators(tasks, tc), BigM(tasks);
    forall c | c in IndicatorCons(ds, m) ensures Holds(c, a) {
      IndicatorConsMember(ds, m, c);
      var d :| d in ds && (c == ActiveLb(d, m) || c == ActiveUb(d, m));
      IndicatorIdle(tasks, tc, a, d);
    }
  }

  /** The lookup table holds a key iff some indicator was created for it,
      and then it holds the variable of the last such indicator. */
  lemma {:induction false} XTableLastWrite(ds: seq<Indicator>, id: int, t: int)
    ensures (id, t) in XTable(ds) <==> exists k :: 0 <= k < |ds| && ds[k].task.id == id && ds[k].t == t
    ensures (id, t) in XTable(ds) ==>
              exists k :: 0 <= k < |ds| && ds[k].task.id == id && ds[k].t == t && XTable(ds)[(id, t)] == XOf(ds[k])
                          && forall k' :: k < k' < |ds| ==> !(ds[k'].task.id == id && ds[k'].t == t)
  {
    if ds != [] {
      var init, last := ds[..|ds| - 1], ds[|ds| - 1];
      XTableLastWrite(init, id, t);
      if last.task.id == id && last.t == t {
        assert ds[|ds| - 1].task.id == id && ds[|ds| - 1].t == t;
      } else {
        if exists k :: 0 <= k < |ds| && ds[k].task.id == id && ds[k].t == t {
          var k :| 0 <= k < |ds| && ds[k].task.id == id && ds[k].t == t;
          assert k < |init| && init[k] == ds[k];
        }
        if (id, t) in XTable(init) {
          var k :| 0 <= k < |init| && init[k].task.id == id && init[k].t == t && XTable(init)[(id, t)] == XOf(init[k])
                   && forall k' :: k < k' < |init| ==> !(init[k'].task.id == id && init[k'].t == t);
          assert ds[k] == init[k];
          forall k' | k < k' < |ds| ensures !(ds[k'].task.id == id && ds[k'].t == t) {
            if k' < |init| {
              assert ds[k'] == init[k'];
            }
          }
        }
      }
    }
  }

  // ------------------------------------------------------------- capacity

  /** The task a capacity summand was emitted for. */
  lemma {:induction false} CapacityTermWitness(tasks: seq<Task>, r: int, t: int, table: map<(int, int), Var>, term: Term)
    returns (k: nat)
    requires term in CapacityTerms(tasks, r, t, table)
    ensures k < |tasks| && Usage(tasks[k], r) != 0 && tasks[k].duration != 0 && (tasks[k].id, t) in table
    ensures term == Term(table[(tasks[k].id, t)], Usage(tasks[k], r))
  {
    var init := tasks[..|tasks| - 1];
    if term in CapacityTerms(init, r, t, table) {
      k := CapacityTermWitness(init, r, t, table, term);
      assert init[k] == tasks[k];
    } else {
      k := |tasks| - 1;
    }
  }

  lemma {:induction false} CapacityTermEmitted(tasks: seq<Task>, r: int, t: int, table: map<(int, int), Var>, k: nat)
    requires k < |tasks| && Usage(tasks[k], r) != 0 && tasks[k].duration != 0 && (tasks[k].id, t) in table
    ensures Term(table[(tasks[k].id, t)], Usage(tasks[k], r)) in CapacityTerms(tasks, r, t, table)
  {
    var init := tasks[..|tasks| - 1];
    if k < |init| {
      assert init[k] == tasks[k];
      CapacityTermEmitted(init, r, t, table, k);
    }
  }

  /** The summands of a capacity constraint: one `usage·x` per task that
      uses `r`, has non-zero duration and has an entry `(id, t)`, with the
      variable found there. */
  lemma CapacityTermsMember(tasks: seq<Task>, r: int, t: int, table: map<(int, int), Var>, term: Term)
    ensures term in CapacityTerms(tasks, r, t, table) <==>
            exists k :: 0 <= k < |tasks| && Usage(tasks[k], r) != 0 && tasks[k].duration != 0
                        && (tasks[k].id, t) in table && term == Term(table[(tasks[k].id, t)], Usage(tasks[k], r))
  {
    if term in CapacityTerms(tasks, r, t, table) {
      var k := CapacityTermWitness(tasks, r, t, table, term);
    }
    if exists k :: 0 <= k < |tasks| && Usage(tasks[k], r) != 0 && tasks[k].duration != 0
                   && (tasks[k].id, t) in table && term == Term(table[(tasks[k].id, t)], Usage(tasks[k], r)) {
      var k :| 0 <= k < |tasks| && Usage(tasks[k], r) != 0 && tasks[k].duration != 0
               && (tasks[k].id, t) in table && term == Term(table[(tasks[k].id, t)], Usage(tasks[k], r));
      CapacityTermEmitted(tasks, r, t, table, k);
    }
  }

  lemma {:induction false} PointCapacityWitness(tasks: seq<Task>, r: int, points: seq<Point>, table: map<(int, int), Var>, c: Constraint)
    returns (q: nat)
    requires c in PointCapacities(tasks, r, points, table)
    ensures q < |points| && CapacityTerms(tasks, r, points[q].t, table) != [] && c == PointCapacity(tasks, r, points[q], table)
  {
    var init := points[..|points| - 1];
    if c in PointCapacities(tasks, r, init, table) {
      q := PointCapacityWitness(tasks, r, init, table, c);
      assert init[q] == points[q];
    } else {
      q := |points| - 1;
    }
  }

  lemma {:induction false} PointCapacityEmitted(tasks: seq<Task>, r: int, points: seq<Point>, table: map<(int, int), Var>, q: nat)
    requires q < |points| && CapacityTerms(tasks, r, points[q].t, table) != []
    ensures PointCapacity(tasks, r, points[q], table) in PointCapacities(tasks, r, points, table)
  {
    var c := PointCapacity(tasks, r, points[q], table);
    var init := points[..|points| - 1];
    var last := points[|points| - 1];
    var before := PointCapacities(tasks, r, init, table);
    var more := if CapacityTerms(tasks, r, last.t, table) == [] then [] else [PointCapacity(tasks, r, last, table)];
    assert PointCapacities(tasks, r, points, table) == before + more;
    if q < |init| {
      assert init[q] == points[q];
      PointCapacityEmitted(tasks, r, init, table, q);
      assert c in before;
    } else {
      assert points[q] == last;
      assert c in more;
    }
  }

  /** The profile and point a capacity constraint was emitted for. */
  lemma {:induction false} CapacityWitness(tasks: seq<Task>, tc: TimeCapacity, table: map<(int, int), Var>, c: Constraint)
    returns (p: nat, q: nat)
    requires c in Capacities(tasks, tc, table)
    ensures p < |tc| && q < |tc[p].points| && CapacityTerms(tasks, tc[p].r, tc[p].points[q].t, table) != []
    ensures c == PointCapacity(tasks, tc[p].r, tc[p].points[q], table)
  {
    var init, last := tc[..|tc| - 1], tc[|tc| - 1];
    if c in Capacities(tasks, init, table) {
      p, q := CapacityWitness(tasks, init, table, c);
      assert init[p] == tc[p];
    } else {
      p := |tc| - 1;
      q := PointCapacityWitness(tasks, last.r, last.points, table, c);
    }
  }

  lemma {:induction false} CapacityEmitted(tasks: seq<Task>, tc: TimeCapacity, table: map<(int, int), Var>, p: nat, q: nat)
    requires p < |tc| && q < |tc[p].points| && CapacityTerms(tasks, tc[p].r, tc[p].points[q].t, table) != []
    ensures PointCapacity(tasks, tc[p].r, tc[p].points[q], table) in Capacities(tasks, tc, table)
  {
    var init, last := tc[..|tc| - 1], tc[|tc| - 1];
    if p < |init| {
      assert init[p] == tc[p];
      CapacityEmitted(tasks, init, table, p, q);
    } else {
      PointCapacityEmitted(tasks, last.r, last.points, table, q);
    }
  }

  /** One capacity constraint `Σ usage·x <= cap` per configured `(r, t)`
      whose sum has at least one summand, and nothing else. */
  lemma CapacitiesMember(tasks: seq<Task>, tc: TimeCapacity, table: map<(int, int), Var>, c: Constraint)
    ensures c in Capacities(tasks, tc, table) <==>
            exists p, q :: 0 <= p < |tc| && 0 <= q < |tc[p].points|
                           && CapacityTerms(tasks, tc[p].r, tc[p].points[q].t, table) != []
                           && c == PointCapacity(tasks, tc[p].r, tc[p].points[q], table)
  {
    if c in Capacities(tasks, tc, table) {
      var p, q := CapacityWitness(tasks, tc, table, c);
    }
    if exists p, q :: 0 <= p < |tc| && 0 <= q < |tc[p].points|
                      && CapacityTerms(tasks, tc[p].r, tc[p].points[q].t, table) != []
                      && c == PointCapacity(tasks, tc[p].r, tc[p].points[q], table) {
      var p, q :| 0 <= p < |tc| && 0 <= q < |tc[p].points|
                  && CapacityTerms(tasks, tc[p].r, tc[p].points[q].t, table) != []
                  && c == PointCapacity(tasks, tc[p].r, tc[p].points[q], table);
      CapacityEmitted(tasks, tc, table, p, q);
    }
  }

  /** A task using 2 units of resource 0 and nothing of resource 1. */
  const SharedTask := Task(1, 5, [], [2], [])

  /** Resources 0 and 1 both configured at time 10. */
  const SharedTime: TimeCapacity := [Profile(0, [Point(10, 2)]), Profile(1, [Point(10, 1)])]

  lemma SharedTimeIndicators()
    ensures Indicators([SharedTask], SharedTime) == [Indicator(SharedTask, 0, 10), Indicator(SharedTask, 1, 10)]
  {
    var tc := SharedTime;
    assert tc[..1] == [Profile(0, [Point(10, 2)])];
    assert [Point(10, 2)][..0] == [];
    assert [Point(10, 1)][..0] == [];
    assert tc[..1][..0] == [];
    assert ProfileIndicators(SharedTask, tc[..1]) == [Indicator(SharedTask, 0, 10)];
    assert [SharedTask][..0] == [];
  }

  lemma SharedTimeTable()
    ensures XTable([Indicator(SharedTask, 0, 10), Indicator(SharedTask, 1, 10)]) == map[(1, 10) := X(1, 1, 10)]
  {
    var ds := [Indicator(SharedTask, 0, 10), Indicator(SharedTask, 1, 10)];
    assert ds[..1] == [Indicator(SharedTask, 0, 10)];
    assert ds[..1][..0] == [];
    assert XTable(ds[..1]) == map[(1, 10) := X(1, 0, 10)];
    assert XTable(ds) == XTable(ds[..1])[(1, 10) := X(1, 1, 10)];
  }

  lemma SharedTimeCapacities()
    ensures Capacities([SharedTask], SharedTime, map[(1, 10) := X(1, 1, 10)]) == [Linear([Term(X(1, 1, 10), 2)], None, Some(2))]
  {
    var tc, table := SharedTime, map[(1, 10) := X(1, 1, 10)];
    assert [SharedTask][..0] == [];
    assert CapacityTerms([SharedTask], 0, 10, table) == [Term(X(1, 1, 10), 2)];
    assert CapacityTerms([SharedTask], 1, 10, table) == [];
    assert [Point(10, 2)][..0] == [];
    assert [Point(10, 1)][..0] == [];
    assert tc[..1] == [Profile(0, [Point(10, 2)])];
    assert tc[..1][..0] == [];
    assert PointCapacities([SharedTask], 0, [Point(10, 2)], table) == [Linear([Term(X(1, 1, 10), 2)], None, Some(2))];
    assert PointCapacities([SharedTask], 1, [Point(10, 1)], table) == [];
    assert Capacities([SharedTask], tc[..1], table) == [Linear([Term(X(1, 1, 10), 2)], None, Some(2))];
  }

  /** Two resources configured at the same time `t`: the task gets one `x`
      per resource, but the table keeps only the second, so the capacity sum
      of resource 0 reads the variable created for resource 1. */
  lemma CapacityReadsLastIndicator()
    ensures var ds := Indicators([SharedTask], SharedTime);
            && ds == [Indicator(SharedTask, 0, 10), Indicator(SharedTask, 1, 10)]
            && Capacities([SharedTask], SharedTime, XTable(ds)) == [Linear([Term(X(1, 1, 10), 2)], None, Some(2))]
  {
    SharedTimeIndicators();
    SharedTimeTable();
    SharedTimeCapacities();
  }

  /** Every entry of the table is an indicator variable. */
  lemma {:induction false} XTableHoldsIndicators(ds: seq<Indicator>)
    ensures forall key :: key in XTable(ds) ==> XTable(ds)[key].X?
  {
    if ds != [] {
      XTableHoldsIndicators(ds[..|ds| - 1]);
    }
  }

  /** A sum of terms over indicator variables is 0 when every indicator is 0. */
  lemma {:induction false} ActivityOfIdleIndicators(terms: seq<Term>, a: Assignment)
    requires forall k :: 0 <= k < |terms| ==> terms[k].v.X?
    requires forall id, r, t :: a(X(id, r, t)) == 0
    ensures Activity(terms, a) == 0
  {
    if terms != [] {
      ActivityOfIdleIndicators(terms[..|terms| - 1], a);
    }
  }

  /** Since nothing forces an `x` to 1, setting every `x` to 0 meets every
      capacity constraint whose capacity is not negative: the capacity
      constraints never restrict the start times. */
  lemma CapacitiesNeverBind(tasks: seq<Task>, tc: TimeCapacity, a: Assignment)
    requires forall p, q :: 0 <= p < |tc| && 0 <= q < |tc[p].points| ==> tc[p].points[q].cap >= 0
    requires forall id, r, t :: a(X(id, r, t)) == 0
    ensures Satisfies(Capacities(tasks, tc, XTable(Indicators(tasks, tc))), a)
  {
    var table := XTable(Indicators(tasks, tc));
    XTableHoldsIndicators(Indicators(tasks, tc));
    forall c | c in Capacities(tasks, tc, table) ensures Holds(c, a) {
      CapacitiesIdle(tasks, tc, table, a, c);
    }
  }

  lemma CapacitiesIdle(tasks: seq<Task>, tc: TimeCapacity, table: map<(int, int), Var>, a: Assignment, c: Constraint)
    requires forall key :: key in table ==> table[key].X?
    requires forall p, q :: 0 <= p < |tc| && 0 <= q < |tc[p].points| ==> tc[p].points[q].cap >= 0
    requires forall id, r, t :: a(X(id, r, t)) == 0
    requires c in Capacities(tasks, tc, table)
    ensures Holds(c, a)
  {
    var p, q := CapacityWitness(tasks, tc, table, c);
    var terms := CapacityTerms(tasks, tc[p].r, tc[p].points[q].t, table);
    forall k | 0 <= k < |terms| ensures terms[k].v.X? {
      var j := CapacityTermWitness(tasks, tc[p].r, tc[p].points[q].t, table, terms[k]);
    }
    ActivityOfIdleIndicators(terms, a);
  }
}

=== FILE: instance.dfy ===
/** The RCPSP instance model: tasks, renewable resources and the instance
    that the `.sm` parser builds and the MILP generator reads. */
module Instance {

  /** One schedulable activity. `resources[r]` is the per-period usage of
      resource `r`; a vector shorter than the number of resources means zero
      usage for the missing entries. */
  datatype Task = Task(
    id: int,
    duration: int,
    successors: seq<int>,
    resources: seq<int>,
    predecessors: seq<int>)

  /** One renewable resource. */
  datatype Resource = Resource(capacity: int)

  datatype RcpspInstance = RcpspInstance(
    nJobs: int,
    nResources: int,
    tasks: seq<Task>,
    resources: seq<Resource>)

  /** Usage of resource `r` by `t`, zero beyond the end of its vector. */
  function Usage(t: Task, r: int): int
  {
    if 0 <= r < |t.resources| then t.resources[r] else 0
  }

  /** No two tasks carry the same id. */
  predicate DistinctIds(tasks: seq<Task>)
  {
    forall i, j :: 0 <= i < j < |tasks| ==> tasks[i].id != tasks[j].id
  }

  /** `tasks[k].id == k + 1` for every slot: ids are dense, 1-based and in
      ascending order, so `id - 1` is the slot of task `id`. */
  predicate SlotIds(tasks: seq<Task>)
  {
    forall k :: 0 <= k < |tasks| ==> tasks[k].id == k + 1
  }

  /** Sum of all task durations. */
  function TotalDuration(tasks: seq<Task>): int
  {
    if tasks == [] then 0
    else TotalDuration(tasks[..|tasks| - 1]) + tasks[|tasks| - 1].duration
  }
}

=== FILE: milp.dfy ===
/** The linear-model vocabulary the constraint generator emits into: structured
    variable keys, variable declarations with bounds, linear constraints with
    optional sides, and what it means for an integer assignment to satisfy
    them. The solver itself is not part of this model. */
module Milp {
  import opened Wrappers

  /** Variable keys. They replace the generated SCIP names: `Start(id)` is
      `t<id>`, `Y(i, j, r)` is `y_<i>_<j>_r<r>`, `Z(id, r, lo, hi)` is
      `z_<id>_r<r>_<lo>_<hi>`. `X(id, r, t)` is `x_<id>_t<t>` created while
      visiting resource `r`: the name does not mention `r`, but every resource
      that lists time `t` creates a separate variable. */
  datatype Var =
    | Start(id: int)
    | Makespan
    | Y(first: int, second: int, r: int)
    | Z(id: int, r: int, lo: int, hi: int)
    | X(id: int, r: int, t: int)

  datatype VarType = Integer | Continuous | Binary

  /** A declared variable: lower bound `lb`, upper bound `ub` (`None` is
      +infinity). */
  datatype VarDecl = VarDecl(v: Var, lb: int, ub: Option<int>, kind: VarType)

  datatype Term = Term(v: Var, coef: int)

  /** `lhs <= Σ coef·v <= rhs`; a missing side is infinite. */
  datatype Constraint = Linear(terms: seq<Term>, lhs: Option<int>, rhs: Option<int>)

  /** A value for every variable. */
  type Assignment = Var -> int

  /** A binary variable: bounds `[0, 1]`. */
  function BinaryDecl(v: Var): VarDecl
  {
    VarDecl(v, 0, Some(1), Binary)
  }

  /** Value of the linear expression `Σ coef·v` under `a`. */
  function Activity(terms: seq<Term>, a: Assignment): int
  {
    if terms == [] then 0
    else
      var last := terms[|terms| - 1];
      Activity(terms[..|terms| - 1], a) + last.coef * a(last.v)
  }

  predicate Holds(c: Constraint, a: Assignment)
  {
    var value := Activity(c.terms, a);
    (c.lhs.Some? ==> c.lhs.value <= value) && (c.rhs.Some? ==> value <= c.rhs.value)
  }

  /** Every constraint of `cons` holds under `a`. */
  predicate Satisfies(cons: seq<Constraint>, a: Assignment)
  {
    forall c :: c in cons ==> Holds(c, a)
  }

  lemma ActivityOfTwo(t1: Term, t2: Term, a: Assignment)
    ensures Activity([t1, t2], a) == t1.coef * a(t1.v) + t2.coef * a(t2.v)
  {
    assert [t1, t2][..1] == [t1];
    assert [t1][..0] == [];
    assert Activity([t1], a) == t1.coef * a(t1.v);
  }

  lemma ActivityOfThree(t1: Term, t2: Term, t3: Term, a: Assignment)
    ensures Activity([t1, t2, t3], a) == t1.coef * a(t1.v) + t2.coef * a(t2.v) + t3.coef * a(t3.v)
  {
    assert [t1, t2, t3][..2] == [t1, t2];
    ActivityOfTwo(t1, t2, a);
  }

  /** A concatenation of constraint lists is satisfied iff both parts are. */
  lemma SatisfiesAppend(cons: seq<Constraint>, more: seq<Constraint>, a: Assignment)
    ensures Satisfies(cons + more, a) <==> Satisfies(cons, a) && Satisfies(more, a)
  {
    if Satisfies(cons, a) && Satisfies(more, a) {
      forall c | c in cons + more ensures Holds(c, a) {
        assert c in cons || c in more;
      }
    }
  }
}

=== FILE: parser.dfy ===
/** The PSPLIB `.sm` parser: a single pass over the lines of the file driven
    by three section flags, followed by task assembly, successor sanitisation
    and the predecessor rebuild. */
module Parser {
  import opened Wrappers
  import opened Seqs
  import opened Instance

  /** One line of the file: its text, used for the section-marker searches,
      and the integers that a string stream reads from it, left to right,
      until the first token that is not an integer. */
  datatype Line = Line(text: string, ints: seq<int>)

  datatype ParseError = CannotOpen

  const PrecedenceMarker: string := "PRECEDENCE RELATIONS"
  const RequestsMarker: string := "REQUESTS/DURATIONS"
  const ResourcesMarker: string := "RESOURCEAVAILABILITIES"
  /** The full-width separator: 72 stars. */
  const Separator: string := "************************************************************************"
  const JobHeader: string := "jobnr."

  /** `pat` occurs somewhere in `s` (a successful `find`). */
  predicate Contains(s: string, pat: string)
  {
    pat <= s || (s != [] && Contains(s[1..], pat))
  }

  /** Which section marker a line carries, tested in the order of the
      source's if-else chain. */
  datatype MarkerKind = PrecedenceHeader | RequestsHeader | ResourcesHeader | SeparatorLine | NoMarker

  function MarkerOf(text: string): MarkerKind
  {
    if Contains(text, PrecedenceMarker) then PrecedenceHeader
    else if Contains(text, RequestsMarker) then RequestsHeader
    else if Contains(text, ResourcesMarker) then ResourcesHeader
    else if Contains(text, Separator) then SeparatorLine
    else NoMarker
  }

  /** The three section flags. They are independent booleans: more than one
      may be set at a time. */
  datatype Modes = Modes(precedence: bool, requests: bool, resources: bool)

  const NoSection := Modes(false, false, false)

  /** Effect of a line on the flags. */
  function ModeStep(m: Modes, text: string): Modes
  {
    match MarkerOf(text)
    case PrecedenceHeader => m.(precedence := true)
    case RequestsHeader => m.(precedence := false, requests := true)
    case ResourcesHeader => m.(requests := false, resources := true)
    case SeparatorLine => NoSection
    case NoMarker => m
  }

  /** Flags in force after reading `lines`. */
  function ModesAfter(lines: seq<Line>): Modes
  {
    if lines == [] then NoSection
    else ModeStep(ModesAfter(lines[..|lines| - 1]), lines[|lines| - 1].text)
  }

  /** How the if-else chain of the scan treats a line under flags `m`. */
  datatype LineKind = Marker | PrecedenceData | RequestsData | ResourcesData | Ignored

  function Classify(m: Modes, text: string): LineKind
  {
    if MarkerOf(text) != NoMarker then Marker
    else if m.precedence && !Contains(text, JobHeader) && text != "" && !Contains(text, "----") then PrecedenceData
    else if m.requests && !Contains(text, JobHeader) && text != "" && !Contains(text, "---") then RequestsData
    else if m.resources && text != "" && !Contains(text, "R ") then ResourcesData
    else Ignored
  }

  /** A data line carries the integers its section reads: a precedence line
      `job modes nsucc s1 .. s_nsucc`, a requests line `job mode duration ..`. */
  predicate LineOk(m: Modes, line: Line)
  {
    match Classify(m, line.text)
    case PrecedenceData => |line.ints| >= 3 && 0 <= line.ints[2] && 3 + line.ints[2] <= |line.ints|
    case RequestsData => |line.ints| >= 3
    case _ => true
  }

  /** Every data line of the file is well formed in the section it is read in. */
  predicate WellFormed(lines: seq<Line>)
  {
    lines == [] ||
    (WellFormed(lines[..|lines| - 1]) && LineOk(ModesAfter(lines[..|lines| - 1]), lines[|lines| - 1]))
  }

  /** Everything the scan accumulates. */
  datatype ScanState = ScanState(
    modes: Modes,
    successors: map<int, seq<int>>,
    durations: map<int, int>,
    usage: map<int, seq<int>>,
    capacities: seq<int>)

  const Initial := ScanState(NoSection, map[], map[], map[], [])

  /** Effect of one line on the scan state. */
  function Step(s: ScanState, line: Line): (t: ScanState)
    requires LineOk(s.modes, line)
    ensures t.modes == ModeStep(s.modes, line.text)
  {
    var ints := line.ints;
    match Classify(s.modes, line.text)
    case Marker => s.(modes := ModeStep(s.modes, line.text))
    case PrecedenceData => s.(successors := s.successors[ints[0] := ints[3..3 + ints[2]]])
    case RequestsData => s.(durations := s.durations[ints[0] := ints[2]], usage := s.usage[ints[0] := ints[3..]])
    case ResourcesData => s.(capacities := s.capacities + ints)
    case Ignored => s
  }

  lemma {:induction false} WellFormedPrefix(lines: seq<Line>, k: nat)
    requires WellFormed(lines)
    requires k <= |lines|
    ensures WellFormed(lines[..k])
    decreases |lines|
  {
    if k < |lines| {
      var n := |lines| - 1;
      assert lines[..n][..k] == lines[..k];
      WellFormedPrefix(lines[..n], k);
    } else {
      assert lines[..k] == lines;
    }
  }

  /** In a well-formed file, line `i` is well formed in the section it is read in. */
  lemma {:induction false} WellFormedAt(lines: seq<Line>, i: nat)
    requires WellFormed(lines)
    requires i < |lines|
    ensures LineOk(ModesAfter(lines[..i]), lines[i])
    decreases |lines|
  {
    var n := |lines| - 1;
    if i < n {
      assert lines[..n][..i] == lines[..i];
      WellFormedAt(lines[..n], i);
    }
  }

  /** State after scanning `lines` from the initial state. */
  function Run(lines: seq<Line>): (s: ScanState)
    requires WellFormed(lines)
    ensures s.modes == ModesAfter(lines)
  {
    if lines == [] then Initial
    else
      var init := lines[..|lines| - 1];
      Step(Run(init), lines[|lines| - 1])
  }

  /** One iteration of the scan loop: the if-else chain over the markers and
      the section flags, applied to the state accumulated so far. */
  method ScanLine(s: ScanState, line: Line) returns (t: ScanState)
    requires LineOk(s.modes, line)
    ensures t == Step(s, line)
  {
    var inPrecedence, inRequests, inResources := s.modes.precedence, s.modes.requests, s.modes.resources;
    var successors, durations, usage, capacities := s.successors, s.durations, s.usage, s.capacities;
    var text, ints := line.text, line.ints;
    ghost var kind := Classify(s.modes, text);
    if Contains(text, PrecedenceMarker) {
      assert kind == Marker && MarkerOf(text) == PrecedenceHeader;
      inPrecedence := true;
    } else if Contains(text, RequestsMarker) {
      assert kind == Marker && MarkerOf(text) == RequestsHeader;
      inPrecedence := false;
      inRequests := true;
    } else if Contains(text, ResourcesMarker) {
      assert kind == Marker && MarkerOf(text) == ResourcesHeader;
      inRequests := false;
      inResources := true;
    } else if Contains(text, Separator) {
      assert kind == Marker && MarkerOf(text) == SeparatorLine;
      inPrecedence, inRequests, inResources := false, false, false;
    } else if inPrecedence && !Contains(text, JobHeader) && text != "" && !Contains(text, "----") {
      assert kind == PrecedenceData;
      var job, nsucc := ints[0], ints[2];
      successors := successors[job := ints[3..3 + nsucc]];
    } else if inRequests && !Contains(text, JobHeader) && text != "" && !Contains(text, "---") {
      assert kind == RequestsData;
      var job, dur := ints[0], ints[2];
      durations := durations[job := dur];
      usage := usage[job := ints[3..]];
    } else if inResources && text != "" && !Contains(text, "R ") {
      assert kind == ResourcesData;
      capacities := capacities + ints;
    } else {
      assert kind == Ignored;
    }
    t := ScanState(Modes(inPrecedence, inRequests, inResources), successors, durations, usage, capacities);
  }

  /** The scan loop of the parser. */
  method ScanLines(lines: seq<Line>) returns (s: ScanState)
    requires WellFormed(lines)
    ensures s == Run(lines)
  {
    s := Initial;
    var i := 0;
    while i < |lines|
      invariant 0 <= i <= |lines|
      invariant WellFormed(lines[..i])
      invariant s == Run(lines[..i])
    {
      assert lines[..i + 1][..i] == lines[..i];
      WellFormedPrefix(lines, i + 1);
      WellFormedAt(lines, i);
      s := ScanLine(s, lines[i]);
      i := i + 1;
    }
    assert lines[..i] == lines;
  }

  /** `m[k]` through `operator[]`: an absent key reads as an empty vector. */
  function Lookup(m: map<int, seq<int>>, k: int): seq<int>
  {
    if k in m then m[k] else []
  }

  /** The task assembled for job `id` before sanitisation. */
  function RawTask(id: int, s: ScanState): Task
    requires id in s.durations
  {
    Task(id, s.durations[id], Lookup(s.successors, id), Lookup(s.usage, id), [])
  }

  /** Emits one task per key of the duration map. The keys are visited in an
      unspecified order, as a hash map iterates them. */
  method BuildTasks(s: ScanState) returns (tasks: seq<Task>)
    ensures |tasks| == |s.durations|
    ensures DistinctIds(tasks)
    ensures forall k :: 0 <= k < |tasks| ==> tasks[k].id in s.durations && tasks[k] == RawTask(tasks[k].id, s)
    ensures forall id :: id in s.durations ==> exists k :: 0 <= k < |tasks| && tasks[k].id == id
  {
    tasks := [];
    var remaining := s.durations.Keys;
    while remaining != {}
      invariant remaining <= s.durations.Keys
      invariant |tasks| + |remaining| == |s.durations|
      invariant DistinctIds(tasks)
      invariant forall k :: 0 <= k < |tasks| ==>
                  tasks[k].id in s.durations && tasks[k].id !in remaining && tasks[k] == RawTask(tasks[k].id, s)
      invariant forall id :: id in s.durations && id !in remaining ==> exists k :: 0 <= k < |tasks| && tasks[k].id == id
      decreases |remaining|
    {
      if forall x :: x !in remaining {
        assert false;
      }
      var id :| id in remaining;
      var t := Task(id, s.durations[id], Lookup(s.successors, id), Lookup(s.usage, id), []);
      ghost var before := tasks;
      tasks := tasks + [t];
      remaining := remaining - {id};
      forall x | x in s.durations && x !in remaining
        ensures exists k :: 0 <= k < |tasks| && tasks[k].id == x
      {
        if x == id {
          assert tasks[|tasks| - 1].id == x;
        } else {
          var k :| 0 <= k < |before| && before[k].id == x;
          assert tasks[k].id == x;
        }
      }
    }
  }

  /** Drops, in place, every successor id outside `[1, nJobs]`. */
  method SanitizeSuccessors(tasks: seq<Task>, nJobs: int) returns (out: seq<Task>)
    ensures |out| == |tasks|
    ensures forall k :: 0 <= k < |tasks| ==> out[k] == tasks[k].(successors := InRange(tasks[k].successors, nJobs))
  {
    out := tasks;
    var k := 0;
    while k < |out|
      invariant |out| == |tasks| && 0 <= k <= |tasks|
      invariant forall q :: 0 <= q < k ==> out[q] == tasks[q].(successors := InRange(tasks[q].successors, nJobs))
      invariant forall q :: k <= q < |tasks| ==> out[q] == tasks[q]
    {
      var succ := out[k].successors;
      var valid: seq<int> := [];
      var j := 0;
      while j < |succ|
        invariant 0 <= j <= |succ|
        invariant valid == InRange(succ[..j], nJobs)
      {
        assert succ[..j + 1][..j] == succ[..j];
        if succ[j] > 0 && succ[j] <= nJobs {
          valid := valid + [succ[j]];
        }
        j := j + 1;
      }
      assert succ[..j] == succ;
      out := out[k := out[k].(successors := valid)];
      k := k + 1;
    }
  }

  /** Ids pushed onto the predecessor list of slot `p` by the first `i` tasks:
      task `k` pushes its id once per occurrence of `p + 1` among its
      successors. */
  function PushedBy(tasks: seq<Task>, i: nat, p: int): seq<int>
    requires i <= |tasks|
  {
    if i == 0 then []
    else PushedBy(tasks, i - 1, p) + Repeat(tasks[i - 1].id, Count(p + 1, tasks[i - 1].successors))
  }

  /** The list that the rebuild leaves in slot `p`. */
  function PredecessorsOf(tasks: seq<Task>, p: int): seq<int>
  {
    PushedBy(tasks, |tasks|, p)
  }

  /** Every slot holds exactly the predecessors that the rebuild pushes. */
  predicate RebuiltPredecessors(tasks: seq<Task>)
  {
    forall p :: 0 <= p < |tasks| ==> tasks[p].predecessors == PredecessorsOf(tasks, p)
  }

  /** `PushedBy` reads only ids and successors. */
  lemma {:induction false} PushedBySameLinks(a: seq<Task>, b: seq<Task>, i: nat, p: int)
    requires |a| == |b| && i <= |a|
    requires forall k :: 0 <= k < |a| ==> a[k].id == b[k].id && a[k].successors == b[k].successors
    ensures PushedBy(a, i, p) == PushedBy(b, i, p)
  {
    if i > 0 {
      PushedBySameLinks(a, b, i - 1, p);
    }
  }

  lemma PushOne(pushed: seq<int>, id: int, succs: seq<int>, j: nat, p: int)
    requires j < |succs|
    ensures pushed + Repeat(id, Count(p + 1, succs[..j + 1]))
            == if succs[j] == p + 1 then pushed + Repeat(id, Count(p + 1, succs[..j])) + [id]
               else pushed + Repeat(id, Count(p + 1, succs[..j]))
  {
    assert succs[..j + 1][..j] == succs[..j];
  }

  /** Empties every predecessor list and leaves everything else alone. */
  method ClearPredecessors(tasks: seq<Task>) returns (out: seq<Task>)
    ensures |out| == |tasks|
    ensures forall k :: 0 <= k < |tasks| ==> out[k] == tasks[k].(predecessors := [])
  {
    out := tasks;
    var k := 0;
    while k < |out|
      invariant |out| == |tasks| && 0 <= k <= |tasks|
      invariant forall q :: 0 <= q < k ==> out[q] == tasks[q].(predecessors := [])
      invariant forall q :: k <= q < |tasks| ==> out[q] == tasks[q]
    {
      out := out[k := out[k].(predecessors := [])];
      k := k + 1;
    }
  }

  /** Appends `id` to the predecessor list of slot `succ - 1` for every entry
      `succ` of `succs`, in order. */
  method PushId(cur: seq<Task>, id: int, succs: seq<int>) returns (out: seq<Task>)
    requires forall succ :: succ in succs ==> 1 <= succ <= |cur|
    ensures |out| == |cur|
    ensures forall p :: 0 <= p < |cur| ==>
              out[p] == cur[p].(predecessors := cur[p].predecessors + Repeat(id, Count(p + 1, succs)))
  {
    out := cur;
    var j := 0;
    while j < |succs|
      invariant 0 <= j <= |succs| && |out| == |cur|
      invariant forall p :: 0 <= p < |cur| ==>
                  out[p] == cur[p].(predecessors := cur[p].predecessors + Repeat(id, Count(p + 1, succs[..j])))
    {
      var succ := succs[j];
      assert succ in succs;
      out := out[succ - 1 := out[succ - 1].(predecessors := out[succ - 1].predecessors + [id])];
      forall p | 0 <= p < |cur|
        ensures out[p] == cur[p].(predecessors := cur[p].predecessors + Repeat(id, Count(p + 1, succs[..j + 1])))
      {
        PushOne(cur[p].predecessors, id, succs, j, p);
      }
      j := j + 1;
    }
    assert succs[..j] == succs;
  }

  /** Clears every predecessor list, then, for every task and every successor
      `succ` of it, appends the task's id to the list of slot `succ - 1`. */
  method RebuildPredecessors(tasks: seq<Task>) returns (out: seq<Task>)
    requires forall k, succ :: 0 <= k < |tasks| && succ in tasks[k].successors ==> 1 <= succ <= |tasks|
    ensures |out| == |tasks|
    ensures forall k :: 0 <= k < |tasks| ==> out[k] == tasks[k].(predecessors := out[k].predecessors)
    ensures RebuiltPredecessors(out)
  {
    out := ClearPredecessors(tasks);
    var i := 0;
    while i < |out|
      invariant |out| == |tasks| && 0 <= i <= |tasks|
      invariant forall p :: 0 <= p < |out| ==> out[p] == tasks[p].(predecessors := PushedBy(tasks, i, p))
    {
      var task := out[i];
      assert task.id == tasks[i].id && task.successors == tasks[i].successors;
      ghost var before := out;
      out := PushId(out, task.id, task.successors);
      forall p | 0 <= p < |out|
        ensures out[p] == tasks[p].(predecessors := PushedBy(tasks, i + 1, p))
      {
        assert before[p] == tasks[p].(predecessors := PushedBy(tasks, i, p));
      }
      i := i + 1;
    }
    forall p | 0 <= p < |out|
      ensures out[p].predecessors == PredecessorsOf(out, p)
    {
      PushedBySameLinks(tasks, out, |tasks|, p);
    }
  }

  /** One resource per collected capacity, in order. */
  method BuildResources(capacities: seq<int>) returns (resources: seq<Resource>)
    ensures |resources| == |capacities|
    ensures forall k :: 0 <= k < |capacities| ==> resources[k].capacity == capacities[k]
  {
    resources := [];
    var k := 0;
    while k < |capacities|
      invariant 0 <= k <= |capacities| && |resources| == k
      invariant forall q :: 0 <= q < k ==> resources[q].capacity == capacities[q]
    {
      resources := resources + [Resource(capacities[k])];
      k := k + 1;
    }
  }

  /** Builds the instance from the lines of an `.sm` file; `None` stands for a
      file that cannot be opened. */
  method ParseSm(file: Option<seq<Line>>) returns (r: Result<RcpspInstance, ParseError>)
    requires file.Some? ==> WellFormed(file.value)
    ensures file.None? ==> r == Failure(CannotOpen)
    ensures file.Some? ==> r.Success?
    ensures file.Some? ==>
      var s, inst := Run(file.value), r.value;
      && inst.nResources == |inst.resources| == |s.capacities|
      && (forall k :: 0 <= k < |inst.resources| ==> inst.resources[k].capacity == s.capacities[k])
      && inst.nJobs == |inst.tasks| == |s.durations|
      && DistinctIds(inst.tasks)
      && (forall id :: id in s.durations ==> exists k :: 0 <= k < |inst.tasks| && inst.tasks[k].id == id)
      && (forall k :: 0 <= k < |inst.tasks| ==>
            var t := inst.tasks[k];
            && t.id in s.durations
            && t.duration == s.durations[t.id]
            && t.resources == Lookup(s.usage, t.id)
            && t.successors == InRange(Lookup(s.successors, t.id), inst.nJobs))
      && RebuiltPredecessors(inst.tasks)
  {
    if file.None? {
      return Failure(CannotOpen);
    }
    var s := ScanLines(file.value);
    var resources := BuildResources(s.capacities);
    var nJobs := |s.durations|;
    var tasks := BuildTasks(s);
    tasks := SanitizeSuccessors(tasks, nJobs);
    tasks := RebuildPredecessors(tasks);
    r := Success(RcpspInstance(nJobs, |s.capacities|, tasks, resources));
  }
}

=== FILE: parser_props.dfy ===
/** What the `.sm` parser guarantees: how the section flags evolve, which
    line a map entry comes from, how capacities accumulate, and when the
    rebuilt predecessor lists are the transpose of the successor lists. */
module ParserProperties {
  import opened Seqs
  import opened Instance
  import opened Parser

  /** Some line of `lines` carries a marker from `opens`, and no later line
      carries one from `closes`. */
  predicate OpenedSince(lines: seq<Line>, opens: set<MarkerKind>, closes: set<MarkerKind>)
  {
    exists j :: 0 <= j < |lines| && MarkerOf(lines[j].text) in opens &&
      forall k :: j < k < |lines| ==> MarkerOf(lines[k].text) !in closes
  }

  /** Which flag a section is. */
  datatype Section = PrecedenceSection | RequestsSection | ResourcesSection

  function Flag(m: Modes, sec: Section): bool
  {
    match sec
    case PrecedenceSection => m.precedence
    case RequestsSection => m.requests
    case ResourcesSection => m.resources
  }

  function Opens(sec: Section): set<MarkerKind>
  {
    match sec
    case PrecedenceSection => {PrecedenceHeader}
    case RequestsSection => {RequestsHeader}
    case ResourcesSection => {ResourcesHeader}
  }

  function Closes(sec: Section): set<MarkerKind>
  {
    match sec
    case PrecedenceSection => {RequestsHeader, SeparatorLine}
    case RequestsSection => {ResourcesHeader, SeparatorLine}
    case ResourcesSection => {SeparatorLine}
  }

  lemma FlagStep(m: Modes, text: string, sec: Section)
    ensures Flag(ModeStep(m, text), sec) ==
            if MarkerOf(text) in Opens(sec) then true
            else if MarkerOf(text) in Closes(sec) then false
            else Flag(m, sec)
  {
  }

  lemma OpenedByLast(lines: seq<Line>, opens: set<MarkerKind>, closes: set<MarkerKind>)
    requires lines != [] && MarkerOf(lines[|lines| - 1].text) in opens
    ensures OpenedSince(lines, opens, closes)
  {
  }

  lemma ClosedByLast(lines: seq<Line>, opens: set<MarkerKind>, closes: set<MarkerKind>)
    requires lines != [] && MarkerOf(lines[|lines| - 1].text) in closes && opens !! closes
    ensures !OpenedSince(lines, opens, closes)
  {
  }

  lemma OpenedSinceInit(lines: seq<Line>, opens: set<MarkerKind>, closes: set<MarkerKind>)
    requires lines != []
    requires MarkerOf(lines[|lines| - 1].text) !in opens && MarkerOf(lines[|lines| - 1].text) !in closes
    ensures OpenedSince(lines, opens, closes) <==> OpenedSince(lines[..|lines| - 1], opens, closes)
  {
    var n := |lines| - 1;
    var init := lines[..n];
    if OpenedSince(init, opens, closes) {
      var j :| 0 <= j < n && MarkerOf(init[j].text) in opens &&
        forall k :: j < k < n ==> MarkerOf(init[k].text) !in closes;
      assert MarkerOf(lines[j].text) in opens;
      assert forall k :: j < k < |lines| ==> MarkerOf(lines[k].text) !in closes by {
        assert forall k :: j < k < n ==> init[k] == lines[k];
      }
    }
    if OpenedSince(lines, opens, closes) {
      var j :| 0 <= j < |lines| && MarkerOf(lines[j].text) in opens &&
        forall k :: j < k < |lines| ==> MarkerOf(lines[k].text) !in closes;
      assert j < n;
      assert MarkerOf(init[j].text) in opens;
      assert forall k :: j < k < n ==> MarkerOf(init[k].text) !in closes by {
        assert forall k :: j < k < n ==> init[k] == lines[k];
      }
    }
  }

  lemma {:induction false} FlagHistory(lines: seq<Line>, sec: Section)
    ensures Flag(ModesAfter(lines), sec) <==> OpenedSince(lines, Opens(sec), Closes(sec))
  {
    if lines != [] {
      var n := |lines| - 1;
      var init, text := lines[..n], lines[n].text;
      FlagHistory(init, sec);
      FlagStep(ModesAfter(init), text, sec);
      var mk := MarkerOf(text);
      if mk in Opens(sec) {
        OpenedByLast(lines, Opens(sec), Closes(sec));
      } else if mk in Closes(sec) {
        ClosedByLast(lines, Opens(sec), Closes(sec));
      } else {
        OpenedSinceInit(lines, Opens(sec), Closes(sec));
      }
    }
  }

  /** Each flag is set exactly when its opening marker has been seen and no
      closing marker has been seen since. `PRECEDENCE RELATIONS` opens the
      precedence section, which `REQUESTS/DURATIONS` and the separator close;
      `REQUESTS/DURATIONS` opens the requests section, which
      `RESOURCEAVAILABILITIES` and the separator close;
      `RESOURCEAVAILABILITIES` opens the resources section, which only the
      separator closes. */
  lemma SectionFlags(lines: seq<Line>)
    ensures ModesAfter(lines).precedence <==> OpenedSince(lines, {PrecedenceHeader}, {RequestsHeader, SeparatorLine})
    ensures ModesAfter(lines).requests <==> OpenedSince(lines, {RequestsHeader}, {ResourcesHeader, SeparatorLine})
    ensures ModesAfter(lines).resources <==> OpenedSince(lines, {ResourcesHeader}, {SeparatorLine})
  {
    FlagHistory(lines, PrecedenceSection);
    FlagHistory(lines, RequestsSection);
    FlagHistory(lines, ResourcesSection);
  }

  /** A line carrying a section marker only switches flags; it is never read
      as data, whatever the flags. */
  lemma MarkerLineIsNotData(s: ScanState, line: Line)
    requires LineOk(s.modes, line)
    requires MarkerOf(line.text) != NoMarker
    ensures Step(s, line) == s.(modes := ModeStep(s.modes, line.text))
  {
  }

  /** Line `i` is a precedence data line for `job`. */
  predicate WritesSuccessors(lines: seq<Line>, i: int, job: int)
    requires 0 <= i < |lines|
  {
    Classify(ModesAfter(lines[..i]), lines[i].text) == PrecedenceData && |lines[i].ints| > 0 && lines[i].ints[0] == job
  }

  /** Line `i` is a requests data line for `job`. */
  predicate WritesRequests(lines: seq<Line>, i: int, job: int)
    requires 0 <= i < |lines|
  {
    Classify(ModesAfter(lines[..i]), lines[i].text) == RequestsData && |lines[i].ints| > 0 && lines[i].ints[0] == job
  }

  lemma WritesPrefix(lines: seq<Line>, n: nat, job: int)
    requires n <= |lines|
    ensures forall i :: 0 <= i < n ==>
              (WritesSuccessors(lines, i, job) <==> WritesSuccessors(lines[..n], i, job)) &&
              (WritesRequests(lines, i, job) <==> WritesRequests(lines[..n], i, job))
  {
    forall i | 0 <= i < n
      ensures lines[..n][..i] == lines[..i] && lines[..n][i] == lines[i]
    {
    }
  }

  lemma StepMaps(s: ScanState, line: Line)
    requires LineOk(s.modes, line)
    ensures var kind, ints := Classify(s.modes, line.text), line.ints;
            && Step(s, line).successors ==
                 (if kind == PrecedenceData then s.successors[ints[0] := ints[3..3 + ints[2]]] else s.successors)
            && Step(s, line).durations == (if kind == RequestsData then s.durations[ints[0] := ints[2]] else s.durations)
            && Step(s, line).usage == (if kind == RequestsData then s.usage[ints[0] := ints[3..]] else s.usage)
  {
  }

  lemma {:induction false} SuccessorsPresent(lines: seq<Line>, job: int)
    requires WellFormed(lines)
    ensures job in Run(lines).successors <==> exists i :: 0 <= i < |lines| && WritesSuccessors(lines, i, job)
  {
    if lines != [] {
      var n := |lines| - 1;
      var init := lines[..n];
      WellFormedPrefix(lines, n);
      SuccessorsPresent(init, job);
      WritesPrefix(lines, n, job);
      StepMaps(Run(init), lines[n]);
      WellFormedAt(lines, n);
      assert Run(lines) == Step(Run(init), lines[n]);
      if exists i :: 0 <= i < |lines| && WritesSuccessors(lines, i, job) {
        var i :| 0 <= i < |lines| && WritesSuccessors(lines, i, job);
        if i < n {
          assert WritesSuccessors(init, i, job);
        }
      }
      if exists i :: 0 <= i < n && WritesSuccessors(init, i, job) {
        var i :| 0 <= i < n && WritesSuccessors(init, i, job);
        assert WritesSuccessors(lines, i, job);
      }
      if WritesSuccessors(lines, n, job) {
        assert job in Run(lines).successors;
      }
    }
  }

  lemma {:induction false} SuccessorsLastValue(lines: seq<Line>, job: int, i: nat)
    requires WellFormed(lines)
    requires i < |lines| && WritesSuccessors(lines, i, job)
    requires forall k :: i < k < |lines| ==> !WritesSuccessors(lines, k, job)
    ensures var ints := lines[i].ints;
            && |ints| >= 3 && 0 <= ints[2] <= |ints| - 3
            && job in Run(lines).successors
            && Run(lines).successors[job] == ints[3..3 + ints[2]]
  {
    var n := |lines| - 1;
    var init, last := lines[..n], lines[n];
    WellFormedPrefix(lines, n);
    WellFormedAt(lines, i);
    StepMaps(Run(init), last);
    if i < n {
      WritesPrefix(lines, n, job);
      assert !WritesSuccessors(lines, n, job);
      SuccessorsLastValue(init, job, i);
    }
  }

  lemma {:induction false} RequestsPresent(lines: seq<Line>, job: int)
    requires WellFormed(lines)
    ensures job in Run(lines).durations <==> exists i :: 0 <= i < |lines| && WritesRequests(lines, i, job)
    ensures job in Run(lines).usage <==> job in Run(lines).durations
  {
    if lines != [] {
      var n := |lines| - 1;
      var init := lines[..n];
      WellFormedPrefix(lines, n);
      RequestsPresent(init, job);
      WritesPrefix(lines, n, job);
      StepMaps(Run(init), lines[n]);
      WellFormedAt(lines, n);
      assert Run(lines) == Step(Run(init), lines[n]);
      if exists i :: 0 <= i < |lines| && WritesRequests(lines, i, job) {
        var i :| 0 <= i < |lines| && WritesRequests(lines, i, job);
        if i < n {
          assert WritesRequests(init, i, job);
        }
      }
      if exists i :: 0 <= i < n && WritesRequests(init, i, job) {
        var i :| 0 <= i < n && WritesRequests(init, i, job);
        assert WritesRequests(lines, i, job);
      }
      if WritesRequests(lines, n, job) {
        assert job in Run(lines).durations && job in Run(lines).usage;
      }
    }
  }

  lemma {:induction false} RequestsLastValue(lines: seq<Line>, job: int, i: nat)
    requires WellFormed(lines)
    requires i < |lines| && WritesRequests(lines, i, job)
    requires forall k :: i < k < |lines| ==> !WritesRequests(lines, k, job)
    ensures var ints := lines[i].ints;
            && |ints| >= 3
            && job in Run(lines).durations && Run(lines).durations[job] == ints[2]
            && job in Run(lines).usage && Run(lines).usage[job] == ints[3..]
  {
    var n := |lines| - 1;
    var init, last := lines[..n], lines[n];
    WellFormedPrefix(lines, n);
    WellFormedAt(lines, i);
    StepMaps(Run(init), last);
    if i < n {
      WritesPrefix(lines, n, job);
      assert !WritesRequests(lines, n, job);
      RequestsLastValue(init, job, i);
    }
  }

  /** `successors[job]` is present exactly when some precedence data line
      names `job`, and then holds the `nsucc` ids of the last such line. */
  lemma SuccessorsLastWrite(lines: seq<Line>, job: int)
    requires WellFormed(lines)
    ensures job in Run(lines).successors <==> exists i :: 0 <= i < |lines| && WritesSuccessors(lines, i, job)
    ensures forall i :: 0 <= i < |lines| && WritesSuccessors(lines, i, job) &&
                        (forall k :: i < k < |lines| ==> !WritesSuccessors(lines, k, job)) ==>
              var ints := lines[i].ints;
              |ints| >= 3 && 0 <= ints[2] <= |ints| - 3 && Run(lines).successors[job] == ints[3..3 + ints[2]]
  {
    SuccessorsPresent(lines, job);
    forall i | 0 <= i < |lines| && WritesSuccessors(lines, i, job) &&
               (forall k :: i < k < |lines| ==> !WritesSuccessors(lines, k, job))
      ensures var ints := lines[i].ints;
              |ints| >= 3 && 0 <= ints[2] <= |ints| - 3 && Run(lines).successors[job] == ints[3..3 + ints[2]]
    {
      SuccessorsLastValue(lines, job, i);
    }
  }

  /** `durations[job]` and `resource_usage[job]` are present exactly when some
      requests data line names `job`; they then hold the third integer and
      all remaining integers of the last such line. */
  lemma RequestsLastWrite(lines: seq<Line>, job: int)
    requires WellFormed(lines)
    ensures job in Run(lines).durations <==> exists i :: 0 <= i < |lines| && WritesRequests(lines, i, job)
    ensures job in Run(lines).usage <==> job in Run(lines).durations
    ensures forall i :: 0 <= i < |lines| && WritesRequests(lines, i, job) &&
                        (forall k :: i < k < |lines| ==> !WritesRequests(lines, k, job)) ==>
              var ints := lines[i].ints;
              |ints| >= 3 && Run(lines).durations[job] == ints[2] && Run(lines).usage[job] == ints[3..]
  {
    RequestsPresent(lines, job);
    forall i | 0 <= i < |lines| && WritesRequests(lines, i, job) &&
               (forall k :: i < k < |lines| ==> !WritesRequests(lines, k, job))
      ensures var ints := lines[i].ints;
              |ints| >= 3 && Run(lines).durations[job] == ints[2] && Run(lines).usage[job] == ints[3..]
    {
      RequestsLastValue(lines, job, i);
    }
  }

  /** The integers of the resource-section data lines, in file order. */
  function ResourceLineInts(lines: seq<Line>): seq<int>
  {
    if lines == [] then []
    else
      var init, last := lines[..|lines| - 1], lines[|lines| - 1];
      ResourceLineInts(init) + (if Classify(ModesAfter(init), last.text) == ResourcesData then last.ints else [])
  }

  /** `capacities` is the in-order concatenation of the integers read from
      the resource-section data lines, whatever the other sections hold. */
  lemma {:induction false} CapacitiesInOrder(lines: seq<Line>)
    requires WellFormed(lines)
    ensures Run(lines).capacities == ResourceLineInts(lines)
  {
    if lines != [] {
      var n := |lines| - 1;
      WellFormedPrefix(lines, n);
      CapacitiesInOrder(lines[..n]);
    }
  }

  lemma CountAfterRepeat(x: int, prefix: seq<int>, y: int, k: nat)
    ensures Count(x, prefix + Repeat(y, k)) == Count(x, prefix) + if x == y then k else 0
  {
    CountAppend(x, prefix, Repeat(y, k));
    CountRepeat(x, y, k);
  }

  /** Occurrences of id `a + 1` in what the first `i` tasks push onto slot `b`,
      when every slot holds the task whose id is one more than its index. */
  lemma {:induction false} PushedCount(tasks: seq<Task>, i: nat, a: int, b: int)
    requires SlotIds(tasks) && i <= |tasks|
    ensures Count(a + 1, PushedBy(tasks, i, b)) == if 0 <= a < i then Count(b + 1, tasks[a].successors) else 0
  {
    if i > 0 {
      PushedCount(tasks, i - 1, a, b);
      var t := tasks[i - 1];
      CountAfterRepeat(a + 1, PushedBy(tasks, i - 1, b), t.id, Count(b + 1, t.successors));
    }
  }

  /** Predecessor duality: when `tasks[k].id == k + 1` for every `k`, task
      `a`'s id occurs in task `b`'s predecessors exactly as often as `b`'s id
      occurs in `a`'s successors. */
  lemma PredecessorDuality(tasks: seq<Task>, a: int, b: int)
    requires SlotIds(tasks) && RebuiltPredecessors(tasks)
    requires 0 <= a < |tasks| && 0 <= b < |tasks|
    ensures Count(tasks[a].id, tasks[b].predecessors) == Count(tasks[b].id, tasks[a].successors)
    ensures tasks[a].id in tasks[b].predecessors <==> tasks[b].id in tasks[a].successors
  {
    PushedCount(tasks, |tasks|, a, b);
    CountPositive(tasks[a].id, tasks[b].predecessors);
    CountPositive(tasks[b].id, tasks[a].successors);
  }

  /** Without ascending ids the duality fails: with the hash-map order
      `[2, 1]`, job 2's successor 1 makes slot 0, which is job 2 itself, its
      predecessor, and job 1 gets none. */
  lemma DualityNeedsSlotIds()
    ensures var tasks := [Task(2, 0, [1], [], [2]), Task(1, 0, [], [], [])];
            && RebuiltPredecessors(tasks)
            && DistinctIds(tasks)
            && 1 in tasks[0].successors
            && 2 !in tasks[1].predecessors
  {
    var tasks := [Task(2, 0, [1], [], [2]), Task(1, 0, [], [], [])];
    assert PushedBy(tasks, 1, 0) == [2];
    assert PushedBy(tasks, 2, 1) == [];
  }
}

=== FILE: seqs.dfy ===
/** Small facts about integer sequences shared by the parser and the generator:
    occurrence counting, the in-range filter used for successor sanitisation,
    and repetition. */
module Seqs {

  /** Number of occurrences of `x` in `s`. */
  function Count(x: int, s: seq<int>): (n: nat)
    ensures n <= |s|
  {
    if s == [] then 0
    else Count(x, s[..|s| - 1]) + (if s[|s| - 1] == x then 1 else 0)
  }

  /** A value occurs at least once exactly when it is a member. */
  lemma {:induction false} CountPositive(x: int, s: seq<int>)
    ensures Count(x, s) > 0 <==> x in s
  {
    if s != [] {
      var init := s[..|s| - 1];
      assert s == init + [s[|s| - 1]];
      CountPositive(x, init);
    }
  }

  lemma {:induction false} CountAppend(x: int, a: seq<int>, b: seq<int>)
    ensures Count(x, a + b) == Count(x, a) + Count(x, b)
    decreases |b|
  {
    if b == [] {
      assert a + b == a;
    } else {
      var b' := b[..|b| - 1];
      assert (a + b)[..|a + b| - 1] == a + b';
      CountAppend(x, a, b');
    }
  }

  /** `k` copies of `x`. */
  function Repeat(x: int, k: nat): (r: seq<int>)
    ensures |r| == k
    ensures forall i :: 0 <= i < k ==> r[i] == x
  {
    if k == 0 then [] else Repeat(x, k - 1) + [x]
  }

  lemma {:induction false} CountRepeat(y: int, x: int, k: nat)
    ensures Count(y, Repeat(x, k)) == if y == x then k else 0
  {
    if k > 0 {
      CountRepeat(y, x, k - 1);
      CountAppend(y, Repeat(x, k - 1), [x]);
    }
  }

  /** The order-preserving filter keeping only the values in `[1, n]`. */
  function InRange(s: seq<int>, n: int): (r: seq<int>)
    ensures |r| <= |s|
    ensures forall v :: v in r ==> 1 <= v <= n
  {
    if s == [] then []
    else
      var last := s[|s| - 1];
      InRange(s[..|s| - 1], n) + (if 1 <= last <= n then [last] else [])
  }

  /** Filtering drops exactly the out-of-range values: every in-range value
      keeps all of its occurrences, every other value loses all of them. */
  lemma {:induction false} InRangeCount(v: int, s: seq<int>, n: int)
    ensures Count(v, InRange(s, n)) == if 1 <= v <= n then Count(v, s) else 0
  {
    if s != [] {
      var init, last := s[..|s| - 1], s[|s| - 1];
      assert s == init + [last];
      InRangeCount(v, init, n);
      CountAppend(v, InRange(init, n), if 1 <= last <= n then [last] else []);
      CountAppend(v, init, [last]);
    }
  }
}

=== FILE: wrappers.dfy ===
/** Option and Result, for infinite bounds and for the parser's error path. */
module Wrappers {

  datatype Option<+T> = None | Some(value: T)

  datatype Result<+T, +E> = Success(value: T) | Failure(error: E)
}
